=== FILE: README.md ===
# OpenSumi core services in Dafny

A model of six small browser-side services of the OpenSumi IDE framework. Each service's decision
logic is written as pure functions over immutable state, and its promises are proved as
contracts and lemmas.

- **Keyboard layouts** (`keymap.dfy`, module `Keymap`). A serialised key mapping is an array
  `[value, withShift, withAltGr, withShiftAltGr, mask, vkey?]` per key code. Decoding it reads
  the four dead-key flags from the low bits of `mask`; an empty array gives the empty mapping.
  The model also covers the layout id chosen from `name`, `id` or `layout`, the `KeymapInfo`
  constructor and `update`, and the three comparisons `getScore`, `fuzzyEqual` and `equal`,
  with their platform-dependent key skips.
- **Localisation** (`localize.dfy`, module `Localize`). Each scope has a registry of message
  tables keyed by the lower-cased language id. The model covers:
  - bundle registration, where the first bundle's language info wins;
  - the current language, which stays unchanged when set to an empty value;
  - message lookup, with the English fallback for a `null` default;
  - lazy creation of a scope's registry, seeded from the stored language or `zh-CN`;
  - `%key%` placeholder replacement, which follows the lazy regular expression `%(.*?)%`.
- **Worker extension host** (`extension_worker.dfy`, module `ExtensionWorker`). The model
  covers:
  - which extensions `activeExtension` activates;
  - which worker script `$getExtensions` announces;
  - the lookups by id and by path;
  - the static service path default;
  - the activation gate, as a state machine over events: no extension is activated in the
    worker before the metadata push `$updateExtHostData` has returned.
- **Editor components** (`editor_component.dfy`, module `EditorComponents`). The model covers:
  - components keyed by uid, with identity-checked disposal;
  - per-scheme resolver arrays, where the newest resolver comes first and a new scheme shares
    the `file` scheme's array;
  - the resolution loop, which stops at the first resolver that calls `resolve`.
- **Toolbar** (`toolbar.dfy`, module `Toolbar`). Three handle lists, one per position, are kept
  stably sorted by `order || 0`. The model covers disposal of a handle, visibility flags and
  the list of visible elements.
- **Tab bar** (`tabbar.dfy`, module `Tabbar`). The model covers the container registry and the
  click handler. A click on the current tab collapses the panel to 50 and remembers its size.
  Any other click selects the tab and restores the remembered size, or 400.

`options.dfy` (module `Options`) holds the `Option` type and JavaScript truthiness of an
optional string.

Things outside these services become parameters:
- the worker's success or failure is an event;
- the mnemonic stripping applied to registered messages is `strip`;
- the path join is `join` and URI formatting is `format`;
- what each editor resolver does with a resource is `act`;
- the panel size reported by `getSize` is an argument;
- the stored language setting is `stored`.

The toolbar's `removeObjectFromArray` comes from a shared helper library. It is taken to splice out the first element identical to the handle (see "## Left out").

## Model

| member | source | states |
|---|---|---|
| Keymap.DecodeEntry | packages/core-common/src/keyboard/keymap.ts:79-108 | an empty entry decodes to empty characters with no dead keys; otherwise the four characters are entries 0-3, the dead-key flags are bits 0-3 of `Number(entry[4])`, and `vkey` is entry 5 exactly when the entry has six elements |
| Keymap.MaskValue | packages/core-common/src/keyboard/keymap.ts:85 | `Number(mask)`: a number is itself, a string of decimal digits is its value, and any other string or a missing entry reads as 0 |
| Keymap.MaskValueOfStrings | packages/core-common/src/keyboard/keymap.ts:85 | `Number("")` is 0, `Number("13")` is 13, and a hexadecimal string reads as 0 in the model |
| Keymap.LowBits | packages/core-common/src/keyboard/keymap.ts:93-96 | the four `(mask & 2^k) > 0` tests together recover `mask mod 16`, so flags and mask carry the same information |
| Keymap.DecodeEncode | packages/core-common/src/keyboard/keymap.ts:79-97 | re-serialising a decoded key mapping and decoding it again gives the same mapping back |
| Keymap.EncodeDecode | packages/core-common/src/keyboard/keymap.ts:79-97 | a well-formed serialised entry (numeric mask below 16) is reproduced by decoding and encoding it again |
| Keymap.DeserializeMapping | packages/core-common/src/keyboard/keymap.ts:74-113 | the result has exactly the serialised key codes, each decoded on its own |
| Keymap.DeserializeSerialize | packages/core-common/src/keyboard/keymap.ts:74-113 | deserialising a serialised mapping gives back the mapping |
| Keymap.LayoutId | packages/core-common/src/keyboard/keymap.ts:115-124 | the id is one of the layout's `name`, `id` or `layout`, and is truthy exactly when one of them is |
| Keymap.LayoutIdPriority | packages/core-common/src/keyboard/keymap.ts:115-124 | a truthy `name` wins, then a truthy `id`, else `layout`; the user-layout flag does not change the id |
| Keymap.NewKeymapInfo | packages/core-common/src/keyboard/keymap.ts:130-134 | the info is a user layout exactly when the argument is `true`, the layout is the argument with that same flag, and the mapping is the deserialised raw mapping |
| Keymap.ConstructedFromSerialized | packages/core-common/src/keyboard/keymap.ts:74-134 | an info constructed from a serialised mapping holds exactly that mapping |
| Keymap.CreateKeyboardLayoutFromDebugInfo | packages/core-common/src/keyboard/keymap.ts:136-140 | the result is always a user layout, whatever the argument says, with the given layout (flag set), raw mapping and no secondary layouts |
| Keymap.Update | packages/core-common/src/keyboard/keymap.ts:142-148 | after `update` the info takes the other's layout, secondary layouts, mapping and user flag, and its layout is the other's layout carrying that flag |
| Keymap.GetScore | packages/core-common/src/keyboard/keymap.ts:150-177 | the score is minus the number of non-skipped keys of `other` that are missing or have a different `value`, so it lies between `-|other|` and 0 |
| Keymap.FuzzyEqual | packages/core-common/src/keyboard/keymap.ts:191-210 | true exactly when every non-skipped key of `other` is present with the same `value` |
| Keymap.Equal | packages/core-common/src/keyboard/keymap.ts:179-189 | true exactly when the user flags agree, the layout ids agree and the mappings fuzzily match |
| Keymap.EqualReflexive | packages/core-common/src/keyboard/keymap.ts:179-210 | every keymap info is equal to itself |
| Keymap.UpdateMakesEqual | packages/core-common/src/keyboard/keymap.ts:142-189 | after `a.update(b)`, `a` is equal to `b` |
| Keymap.FuzzyMatchScoresZero | packages/core-common/src/keyboard/keymap.ts:150-210 | a fuzzy match scores 0 on every platform |
| Keymap.FuzzyMatchIffPerfectScore | packages/core-common/src/keyboard/keymap.ts:150-210 | away from Linux, a fuzzy match and a perfect score are the same thing |
| Keymap.LinuxScoreIsLaxerThanFuzzyEqual | packages/core-common/src/keyboard/keymap.ts:158-161 | on Linux a missing `Escape` key still scores 0 while `fuzzyEqual` rejects it |
| Localize.LowerIdempotent | packages/core-common/src/localize.ts:84 | lower-casing a language id twice is the same as once |
| Localize.Lower | packages/core-common/src/localize.ts:84 | lower-casing keeps the length, maps every ASCII capital to its small letter and keeps every other character |
| Localize.NewRegistry | packages/core-common/src/localize.ts:47-53 | a new registry has the given current language, no stored tables (so every language reads an empty table) and no language infos |
| Localize.Contents | packages/core-common/src/localize.ts:83-89 | the table of a language is the one stored under its lower-cased id, or an empty table when none is stored |
| Localize.ContentsIgnoreCase | packages/core-common/src/localize.ts:83-89 | language ids that differ only in ASCII case share one message table, and an already lower-cased id reads the same table |
| Localize.RegisterBundle | packages/core-common/src/localize.ts:65-73 | registered keys are overwritten with their stripped messages and other keys and languages are untouched; the language info is added only if none is stored for that id yet |
| Localize.FirstRegistrationWins | packages/core-common/src/localize.ts:70-72 | of two bundles for one language, the first one's info is kept |
| Localize.FirstInfoIsFound | packages/core-common/src/localize.ts:53 | with distinct language ids, the info stored for an id is found under it |
| Localize.InfoOf | packages/core-common/src/localize.ts:70-72 | the info found for an id is the first stored one with that id, and nothing exactly when no stored info has it |
| Localize.SetCurrentLanguage | packages/core-common/src/localize.ts:59-63 | an empty language id leaves the registry as it was; any other becomes current |
| Localize.AllLanguages | packages/core-common/src/localize.ts:91-93 | every listed id has a stored info, every stored id is listed, and there are as many entries as stored infos; that each listed info is the stored one is `ListedInfosAreStored`, and the registration order is `LanguagesInRegistrationOrder` |
| Localize.ListedInfosAreStored | packages/core-common/src/localize.ts:91-93 | every listed language info is the one found under its id |
| Localize.LanguagesInRegistrationOrder | packages/core-common/src/localize.ts:65-93 | registering a new language appends its info to the list, and registering a known one leaves the list as it was |
| Localize.GetLocalizeString | packages/core-common/src/localize.ts:75-81 | a truthy message of the current language wins, then a truthy default (for `null`, the English message), else the empty string |
| Localize.RegisteredMessageIsFound | packages/core-common/src/localize.ts:65-81 | a non-empty message registered for the current language (in any case) is what lookup returns |
| Localize.NullDefaultFallsBackToEnglish | packages/core-common/src/localize.ts:77-80 | with a `null` default and no current message, the `en-US` message is returned |
| Localize.InitialLanguage | packages/core-common/src/localize.ts:119 | a scope starts in the stored language if it is set and non-empty, else in `zh-CN` |
| Localize.EnsureScope | packages/core-common/src/localize.ts:117-122 | an existing scope is kept as is; a missing one is created with the initial language |
| Localize.Localize | packages/core-common/src/localize.ts:7-10 | `localize` looks the key up in its scope's registry, creating the registry first if needed; in a new scope the result is a non-empty label default, else the empty string |
| Localize.ClosingPercent | packages/core-common/src/localize.ts:130 | the closing `%` found is the first one, with no line terminator before it |
| Localize.ReplacePlaceholders | packages/core-common/src/localize.ts:130 | a text with fewer than two `%` signs is left unchanged |
| Localize.SinglePlaceholder | packages/core-common/src/localize.ts:130 | `%key%` is replaced by the key's message |
| Localize.PlaceholderThenRest | packages/core-common/src/localize.ts:130 | a `%key%` at the start of a text (key without `%` or line break) becomes the key's message, followed by the replaced rest |
| Localize.UnmatchedPercent | packages/core-common/src/localize.ts:130 | a `%` with no closing `%` on its line is copied and the scan resumes right after it |
| Localize.ClosingAt | packages/core-common/src/localize.ts:130 | a `%` preceded only by ordinary characters is the closing one found |
| Localize.PlainPrefix | packages/core-common/src/localize.ts:130 | text before the first `%` is copied unchanged |
| Localize.LineBreakBlocksMatch | packages/core-common/src/localize.ts:130 | a placeholder cannot span a line break |
| Localize.CountAppend | packages/core-common/src/localize.ts:130 | the `%` count of a concatenation is the sum of the counts |
| Localize.ReplaceLocalizePlaceholder | packages/core-common/src/localize.ts:128-132 | an absent or empty label gives `undefined`, any other gives a text; a label with fewer than two `%` signs is returned unchanged |
| Localize.PlaceholderLabelIsLocalized | packages/core-common/src/localize.ts:7-132 | a label that is one `%key%` becomes the key's message in the `env` scope (by default `host`), and the empty string when that scope has no registry yet |
| ExtensionWorker.ActivationRoute | packages/kaitian-extension/src/browser/extension-worker.service.ts:54-68 | a legacy worker entry always activates; otherwise an extension activates exactly when it has both `kaitianContributes` and `contributes.workerMain` |
| ExtensionWorker.WorkerEntry | packages/kaitian-extension/src/browser/extension-worker.service.ts:100-114 | the announced worker script is `contributes.workerMain` when set, else the legacy entry, and exists exactly when one of them is truthy |
| ExtensionWorker.ActivatedExtensionsHaveEntry | packages/kaitian-extension/src/browser/extension-worker.service.ts:54-114 | every extension `activeExtension` activates has a worker script to announce |
| ExtensionWorker.OppositePrecedence | packages/kaitian-extension/src/browser/extension-worker.service.ts:58-109 | with both entries declared, activation takes the legacy route while the announced script is `workerMain` |
| ExtensionWorker.FindIndex | packages/kaitian-extension/src/browser/extension-worker.service.ts:86 | `Array.prototype.find`: the position found is the first one satisfying the predicate |
| ExtensionWorker.GetExtension | packages/kaitian-extension/src/browser/extension-worker.service.ts:85-87 | the first extension with the id, or nothing exactly when no extension has it |
| ExtensionWorker.ActivateByPath | packages/kaitian-extension/src/browser/extension-worker.service.ts:93-98 | the extension activated is the first whose path is the argument; nothing is activated exactly when no path matches |
| ExtensionWorker.ScriptUri | packages/kaitian-extension/src/browser/extension-worker.service.ts:202-204 | the script URI is the extension location with its path joined with the script, and the same scheme, authority, query and fragment |
| ExtensionWorker.WorkerExtensionProps | packages/kaitian-extension/src/browser/extension-worker.service.ts:200-206 | the extension's JSON with `workerScriptPath` added, set to the formatted script URI next to the extension location; every other property is unchanged |
| ExtensionWorker.Serialize | packages/kaitian-extension/src/browser/extension-worker.service.ts:100-114 | an extension without a worker script is sent as its plain JSON, one with a script as its worker properties for the announced script |
| ExtensionWorker.GetExtensions | packages/kaitian-extension/src/browser/extension-worker.service.ts:100-114 | one entry per extension, in order; plain JSON without a worker script, else with `workerScriptPath` the formatted URI of the announced script next to the extension |
| ExtensionWorker.GetExtensionsKeepsProperties | packages/kaitian-extension/src/browser/extension-worker.service.ts:100-114 | every other property of an extension's JSON comes through unchanged |
| ExtensionWorker.StaticServicePath | packages/kaitian-extension/src/browser/extension-worker.service.ts:116-118 | the configured path unless unset or empty, else `http://127.0.0.1:8000` |
| ExtensionWorker.Init | packages/kaitian-extension/src/browser/extension-worker.service.ts:26-29 | the fresh service has no extensions, is idle, has no protocol, neither signal resolved, nothing waiting and no calls, and satisfies the invariant |
| ExtensionWorker.OnActivate | packages/kaitian-extension/src/browser/extension-worker.service.ts:38-39 | `activate()` starts spawning the worker |
| ExtensionWorker.OnSpawnSettled | packages/kaitian-extension/src/browser/extension-worker.service.ts:39-42 | with a protocol, `ready` resolves; without one, `activate()` returns with neither signal fired |
| ExtensionWorker.OnSpawnFailed | packages/kaitian-extension/src/browser/extension-worker.service.ts:39 | a failure to start the worker rejects `activate()` |
| ExtensionWorker.OnApiProxyInstalled | packages/kaitian-extension/src/browser/extension-worker.service.ts:45-48 | after the API proxy is installed, `$updateExtHostData` is issued |
| ExtensionWorker.OnMetadataPushed | packages/kaitian-extension/src/browser/extension-worker.service.ts:48-49 | the signal fires, the gate is the number of calls so far, and the waiting activations are issued in request order after every earlier call; nothing else changes |
| ExtensionWorker.OnActiveExtension | packages/kaitian-extension/src/browser/extension-worker.service.ts:54-76 | skipped extensions and hosts without a worker host issue nothing; others issue `$activateExtension` at once if the signal fired, else wait for it |
| ExtensionWorker.OnUpdateExtensionData | packages/kaitian-extension/src/browser/extension-worker.service.ts:78-83 | the extension list is replaced, the metadata is pushed again only when a protocol exists, and nothing else changes |
| ExtensionWorker.StepKeepsInv | packages/kaitian-extension/src/browser/extension-worker.service.ts:38-83 | every event keeps the ordering invariant |
| ExtensionWorker.RunKeepsInv | packages/kaitian-extension/src/browser/extension-worker.service.ts:38-83 | any sequence of events keeps the ordering invariant |
| ExtensionWorker.SignalFixesGate | packages/kaitian-extension/src/browser/extension-worker.service.ts:38-83 | calls are only ever appended; the gate is set to the number of calls issued on the event that fires the signal, and never moves afterwards |
| ExtensionWorker.NoActivationBeforeMetadata | packages/kaitian-extension/src/browser/extension-worker.service.ts:70-76 | in every run with a single `activate()`, each `$activateExtension` call comes after the calls issued before the metadata push returned, which include `$updateExtHostData`, and only with a worker host configured |
| ExtensionWorker.EarlyActivationWaits | packages/kaitian-extension/src/browser/extension-worker.service.ts:38-76 | an activation requested while the worker starts is issued exactly once, right after the metadata push |
| ExtensionWorker.NoProtocolNoSignals | packages/kaitian-extension/src/browser/extension-worker.service.ts:41-50 | without a protocol, neither signal fires and no call is made |
| EditorComponents.RegisterEditorComponent | packages/editor/src/browser/component.ts:16-21 | the component is stored under its uid, with `ONE_PER_GROUP` when it had no render mode |
| EditorComponents.DisposeEditorComponent | packages/editor/src/browser/component.ts:22-28 | the uid is removed only while it still maps to the same component object |
| EditorComponents.GetEditorComponent | packages/editor/src/browser/component.ts:67-69 | the stored component, or nothing exactly when the uid is unknown |
| EditorComponents.LastRegistrationWins | packages/editor/src/browser/component.ts:16-21 | the latest registration under a uid is the one found, always with a render mode |
| EditorComponents.DisposeSuperseded | packages/editor/src/browser/component.ts:16-28 | disposing a superseded registration keeps the newer one; disposing the newer one removes the uid |
| EditorComponents.GetResolvers | packages/editor/src/browser/component.ts:60-65 | a known scheme keeps its array; a new scheme is bound to the `file` scheme's own array, or to a new empty one |
| EditorComponents.ResolversOf | packages/editor/src/browser/component.ts:60-65 | the resolvers of a scheme are those of the array `getResolvers` binds it to |
| EditorComponents.RegisterResolver | packages/editor/src/browser/component.ts:31-32 | the resolver goes to the front of its scheme's array; only `scheme` may become newly bound, existing bindings are kept, every scheme sharing that array sees the same change and every other bound scheme is untouched |
| EditorComponents.RemoveFirst | packages/editor/src/browser/component.ts:35-38 | removes the first occurrence of the resolver and keeps the rest in order, and leaves the array alone if it is absent |
| EditorComponents.IndexOf | packages/editor/src/browser/component.ts:35 | `indexOf`: the first position holding the value, or the length (for -1) exactly when it is absent |
| EditorComponents.DisposeResolver | packages/editor/src/browser/component.ts:33-40 | the scheme's array loses the first occurrence of the resolver; only `scheme` may become newly bound, existing bindings are kept, every scheme sharing that array sees the same change and every other bound scheme is untouched |
| EditorComponents.NewestFirst | packages/editor/src/browser/component.ts:32 | the later of two resolvers is consulted first |
| EditorComponents.DisposeUndoesRegister | packages/editor/src/browser/component.ts:31-40 | register then dispose restores the array, and disposing twice changes nothing more |
| EditorComponents.SeededSchemeSharesFileArray | packages/editor/src/browser/component.ts:60-65 | a resolver registered for a new scheme is also consulted for `file` resources |
| EditorComponents.RunResolvers | packages/editor/src/browser/component.ts:51-56 | the loop hands each resolver the results of the ones before it; every resolver before the last one consulted continues, the last one consulted is the one that resolved with the result, and without a resolution the result is that of all resolvers in turn |
| EditorComponents.ThreadedShift | packages/editor/src/browser/component.ts:51-56 | threading from a later resolver with the results so far is the same as threading from the start |
| EditorComponents.ResolvedStopsTheLoop | packages/editor/src/browser/component.ts:51-56 | resolvers after the resolving one never affect the outcome |
| EditorComponents.FirstClaimWins | packages/editor/src/browser/component.ts:47-56 | when the first resolver resolves, its value is the result and nothing else runs |
| EditorComponents.ResolveEditorComponent | packages/editor/src/browser/component.ts:43-58 | the registry is the one `getResolvers` leaves, which binds only the scheme and changes no scheme's resolvers; the result is what the scheme's resolvers produce from an empty array, and no resolvers give an empty result |
| Toolbar.InsertIndex | packages/toolbar/src/browser/toolbar.view.service.ts:23 | the new handle goes after every leading handle whose order is at most its own, and before a greater one |
| Toolbar.Insert | packages/toolbar/src/browser/toolbar.view.service.ts:23 | insertion adds exactly the new handle |
| Toolbar.InsertKeepsSorted | packages/toolbar/src/browser/toolbar.view.service.ts:23 | inserting into a sorted list keeps it sorted by `order || 0` |
| Toolbar.SortByOrder | packages/toolbar/src/browser/toolbar.view.service.ts:23 | the sort returns a permutation sorted by `order || 0` |
| Toolbar.SortSortedIsIdentity | packages/toolbar/src/browser/toolbar.view.service.ts:23 | the stable sort leaves a sorted list as it is |
| Toolbar.InsertLast | packages/toolbar/src/browser/toolbar.view.service.ts:21-23 | a handle with the largest order stays at the end where it was pushed |
| Toolbar.RegisterToolBarElement | packages/toolbar/src/browser/toolbar.view.service.ts:18-30 | the new handle is visible, its position's list gains exactly it and stays sorted, and the other positions are untouched |
| Toolbar.RegisterIsStableInsert | packages/toolbar/src/browser/toolbar.view.service.ts:21-23 | on a sorted list, push-then-sort places the new handle after all handles of equal order |
| Toolbar.RegisterKeepsValid | packages/toolbar/src/browser/toolbar.view.service.ts:18-30 | registration keeps every list sorted with distinct handles |
| Toolbar.RemoveHandle | packages/toolbar/src/browser/toolbar.view.service.ts:26 | removing the first handle with the given identity (`removeObjectFromArray`, taken as `indexOf` and `splice`): the handles before and after it are kept in order, and the list is left alone if the handle is absent |
| Toolbar.IndexOfHid | packages/toolbar/src/browser/toolbar.view.service.ts:26 | `indexOf`: the first position holding the handle, or the length (for -1) exactly when it is absent |
| Toolbar.RemoveHandleCons | packages/toolbar/src/browser/toolbar.view.service.ts:26 | removal from a non-empty list drops the head if it is the handle and otherwise keeps it and removes from the tail |
| Toolbar.RemoveKeepsSorted | packages/toolbar/src/browser/toolbar.view.service.ts:26 | removal keeps a list sorted |
| Toolbar.SpliceKeepsSorted | packages/toolbar/src/browser/toolbar.view.service.ts:26 | splicing one handle out of a sorted list leaves it sorted |
| Toolbar.RemoveKeepsDistinct | packages/toolbar/src/browser/toolbar.view.service.ts:26 | removal keeps handles distinct and leaves none equal to the removed one |
| Toolbar.DisposeHandle | packages/toolbar/src/browser/toolbar.view.service.ts:24-28 | disposing splices the handle out of the element's position, keeping the other handles in order, touches no other position, and changes nothing if the handle is already gone |
| Toolbar.DisposeKeepsValid | packages/toolbar/src/browser/toolbar.view.service.ts:24-28 | disposing keeps the invariant and the disposed handle is gone from its position |
| Toolbar.SetVisibleKeepsValid | packages/toolbar/src/browser/toolbar.view.service.ts:47-49 | changing a visibility flag keeps every list sorted with distinct handles |
| Toolbar.SetVisibleIn | packages/toolbar/src/browser/toolbar.view.service.ts:47-49 | only the handle's own flag changes |
| Toolbar.SetVisible | packages/toolbar/src/browser/toolbar.view.service.ts:47-49 | `setVisible` changes the handle's flag wherever it is listed and nothing else |
| Toolbar.VisibleElements | packages/toolbar/src/browser/toolbar.view.service.ts:33 | the result holds exactly the elements of visible handles; one handle gives its element when visible and nothing otherwise |
| Toolbar.VisibleAppend | packages/toolbar/src/browser/toolbar.view.service.ts:33 | filtering a concatenation is concatenating the filtered parts, so the visible elements keep the list order |
| Toolbar.VisibleSorted | packages/toolbar/src/browser/toolbar.view.service.ts:23-33 | the visible elements of a sorted list are sorted by `order || 0` |
| Toolbar.GetVisibleElements | packages/toolbar/src/browser/toolbar.view.service.ts:32-34 | a position shows exactly the elements of its visible handles |
| Toolbar.ShownInOrder | packages/toolbar/src/browser/toolbar.view.service.ts:18-34 | a position always shows its visible elements sorted by `order || 0` |
| Toolbar.HidingIsRemovingForDisplay | packages/toolbar/src/browser/toolbar.view.service.ts:26-49 | hiding a handle shows the same elements as disposing it |
| Toolbar.NewElementIsShown | packages/toolbar/src/browser/toolbar.view.service.ts:18-34 | a newly registered element is shown in its position |
| Tabbar.NewTabbar | packages/main-layout/src/browser/tabbar/tabbar.service.ts:10-18 | a new tab bar has its location, no containers, no current container and no remembered size |
| Tabbar.RegisterContainer | packages/main-layout/src/browser/tabbar/tabbar.service.ts:20-22 | the info is stored under its id, replacing any earlier one, the other containers, the location, the current id and the remembered size are kept |
| Tabbar.GetContainer | packages/main-layout/src/browser/tabbar/tabbar.service.ts:24-26 | the stored info, or nothing exactly when the id is unknown |
| Tabbar.RegisteredContainerIsFound | packages/main-layout/src/browser/tabbar/tabbar.service.ts:20-26 | a registered container is found under its id and other ids are unaffected |
| Tabbar.ExpandedSize | packages/main-layout/src/browser/tabbar/tabbar.service.ts:43 | the remembered size unless it is missing or zero, else 400 |
| Tabbar.HandleTabClick | packages/main-layout/src/browser/tabbar/tabbar.service.ts:28-45 | a click on the current tab collapses to 50 and remembers the size; any other click selects the tab and restores the remembered size, remembering the current size first if none is remembered |
| Tabbar.CollapseThenExpandRestores | packages/main-layout/src/browser/tabbar/tabbar.service.ts:34-44 | collapsing and then clicking the same tab again restores the panel's earlier size |
| Tabbar.ClickToggles | packages/main-layout/src/browser/tabbar/tabbar.service.ts:34-44 | a click on the current tab of an expanded panel collapses it, and a click on a collapsed panel expands it |
| Tabbar.ForbidCollapseNeverCollapses | packages/main-layout/src/browser/tabbar/tabbar.service.ts:32-44 | with collapsing forbidden, a click always selects the tab |
| Tabbar.FirstClickKeepsSize | packages/main-layout/src/browser/tabbar/tabbar.service.ts:39-43 | the first click keeps the panel at its current non-zero size |
| Tabbar.SwitchingKeepsRememberedSize | packages/main-layout/src/browser/tabbar/tabbar.service.ts:39-43 | switching tabs never changes the remembered size, so a resize made while expanded is lost at the next switch |

## Left out

- The worker spawning, the iframe wrapper, the message port and the RPC protocol are left out. Their outcome is the `SpawnSettled`/`SpawnFailed` event, and remote calls are recorded in the `calls` log.
- Logging, the deprecation warning and `disposeProcess` are left out; they have no effect on state.
- `getActivatedExtensions` and `getProxy` are left out; they only forward to the worker.
- ExtensionWorker.OnActivate: a second `activate()` call is a no-op in the model. The service would spawn a second worker and replace `protocol`, while the metadata signal stays resolved from the first worker. An activation requested while the second worker installs its API proxy would then be issued to it before its own `$updateExtHostData`. The promise of `NoActivationBeforeMetadata` therefore covers only the first worker.
- Toolbar.RemoveHandle: `removeObjectFromArray` comes from a shared helper library that is not part of this model. It is modelled as `indexOf` and `splice`: the first handle with the same identity is removed and the rest keep their order.
- `extension.activate()` is left out; the model returns which extension it runs on.
- `toJSON()` is a flat string map in the model, and nested JSON values are not modelled.
- `clearPerWorkbenchComponentCache` and `perWorkbenchComponents` are left out; they are React DOM plumbing.
- `formatLocalize`, `getLanguageId`, `getCurrentLanguageInfo`, `setLanguageId` and `getAvailableLanguages` are left out. They are one-line forwarders to the registry members that are modelled.
- Localize.Lower: `toLowerCase` is modelled on ASCII letters only, not on the full Unicode case mapping.
- Localize.ReplaceLocalizePlaceholder: the replacement of a text with placeholders is modelled without creating the `env` scope's registry, which the source does on lookup. The new registry is not observable in the returned text.
- Localize.GetLocalizeString: the empty table that `getContents` creates for an unknown language is not stored. Reading it back gives the same empty table.
- Keymap.MaskValue: `Number(mask)` is modelled for integers and strings of decimal digits. Every other string, including ones with signs, spaces, exponents, fractions or a `0x` prefix, reads as 0, like `NaN`.
- Keymap.NewKeymapInfo: the constructor writes the user flag into the layout object it is given, and `update` into the other info's layout, which the two infos then share. The model returns a copy carrying the flag; the caller's object is not changed and later writes through one info are not seen by the other.
- EditorComponents.RegisterEditorComponent: the model assumes every render mode given is truthy, so only a missing one is replaced by `ONE_PER_GROUP`. The enum declaration (`./types`) is not part of this model; a render mode with the value 0 would also be replaced.
- EditorComponents.ResolveEditorComponent: a resolver whose promise rejects makes `resolveEditorComponent` reject. The model has no rejection; `act` always continues or resolves.
- Keymap.GetScore: `isWindows` and `isLinux` are parameters instead of platform constants, and keys are a set, not in JavaScript enumeration order. The score does not depend on the order.
- The keyboard layout records keep only `name`, `id`, `layout` and the user flag. The other platform-specific fields are never read by this code.
- Editor resolvers are known only by identity. What each does with a resource is the `act` parameter. The `await` between resolvers is not modelled; the loop runs on a snapshot, so later registrations cannot affect it.
- The toolbar's `order` is an integer, not a floating-point number.
- The tab bar: `getSize` and `setSize` become an argument and a returned size, and the `location` argument passed to them is not modelled. A `NaN` size is not modelled, and sizes are integers where `getSize` returns a JavaScript number that may have a fraction.

=== FILE: editor_component.dfy ===
/** The editor component registry (packages/editor/src/browser/component.ts): components keyed
    by uid with identity-checked disposal, newest-first resolver lists per URI scheme seeded from
    the `file` scheme, and the resolution loop that stops at the first resolver that claims the
    resource. */
module EditorComponents {
  import opened Options

  // ---------------------------------------------------------------------------------------------
  // Components

  datatype RenderMode = OnePerResource | OnePerGroup | OnePerWorkbench

  /** An editor component object: `ref` is its object identity. */
  datatype Component = Component(ref: nat, uid: string, renderMode: Option<RenderMode>)

  /** Resolver functions are known by their identity only. */
  type ResolverId = nat

  /** The registry. Resolver arrays live in `lists`, known by position; `schemes` maps a scheme
      to the array it uses, so two schemes can share one array, as they do in the source. */
  datatype Registry = Registry(
    components: map<string, Component>,
    lists: seq<seq<ResolverId>>,
    schemes: map<string, nat>)

  predicate Valid(r: Registry) {
    forall s :: s in r.schemes ==> r.schemes[s] < |r.lists|
  }

  const Empty: Registry := Registry(map[], [], map[])

  const FileScheme: string := "file"

  /** `registerEditorComponent`: a component without a render mode gets `ONE_PER_GROUP`, and is
      stored under its uid, replacing any earlier one. Returns the stored component. */
  function RegisterEditorComponent(r: Registry, c: Component): (res: (Registry, Component))
    ensures var (r', stored) := res;
      && stored.ref == c.ref && stored.uid == c.uid
      && (c.renderMode.None? ==> stored.renderMode == Some(OnePerGroup))
      && (c.renderMode.Some? ==> stored.renderMode == c.renderMode)
      && r'.components == r.components[c.uid := stored]
      && r'.lists == r.lists && r'.schemes == r.schemes
  {
    var stored := if c.renderMode.None? then c.(renderMode := Some(OnePerGroup)) else c;
    (r.(components := r.components[c.uid := stored]), stored)
  }

  /** The disposer of a component registration: removes the uid only while it still maps to that
      same component object. */
  function DisposeEditorComponent(r: Registry, c: Component): (r': Registry)
    ensures c.uid in r.components && r.components[c.uid].ref == c.ref ==>
      r'.components == r.components - {c.uid}
    ensures !(c.uid in r.components && r.components[c.uid].ref == c.ref) ==> r' == r
    ensures r'.lists == r.lists && r'.schemes == r.schemes
  {
    if c.uid in r.components && r.components[c.uid].ref == c.ref
    then r.(components := r.components - {c.uid})
    else r
  }

  /** `getEditorComponent`: the stored component, or nothing (`null`). */
  function GetEditorComponent(r: Registry, uid: string): (o: Option<Component>)
    ensures o.Some? <==> uid in r.components
    ensures o.Some? ==> o.value == r.components[uid]
  {
    if uid in r.components then Some(r.components[uid]) else None
  }

  /** The latest registration under a uid is the one found. */
  lemma LastRegistrationWins(r: Registry, c: Component)
    ensures var (r', stored) := RegisterEditorComponent(r, c);
      GetEditorComponent(r', c.uid) == Some(stored) && stored.renderMode.Some?
  {
  }

  /** Disposing a superseded registration leaves the newer one in place; disposing the newer one
      removes the uid. */
  lemma DisposeSuperseded(r: Registry, c1: Component, c2: Component)
    requires c1.uid == c2.uid && c1.ref != c2.ref
    ensures var (r1, _) := RegisterEditorComponent(r, c1);
      var (r2, stored2) := RegisterEditorComponent(r1, c2);
      && GetEditorComponent(DisposeEditorComponent(r2, c1), c2.uid) == Some(stored2)
      && GetEditorComponent(DisposeEditorComponent(r2, c2), c2.uid) == None
  {
  }

  // ---------------------------------------------------------------------------------------------
  // Resolver lists

  /** `getResolvers`: the array of a scheme; a scheme seen for the first time is bound to the
      `file` scheme's array itself (the same array, not a copy) or, failing that, to a new empty
      array. Returns the array's position. */
  function GetResolvers(r: Registry, scheme: string): (res: (Registry, nat))
    requires Valid(r)
    ensures var (r', id) := res;
      && Valid(r') && id < |r'.lists| && scheme in r'.schemes && r'.schemes[scheme] == id
      && r'.components == r.components
      && (scheme in r.schemes ==> r' == r)
      && (scheme !in r.schemes && FileScheme in r.schemes ==>
            r'.lists == r.lists && id == r.schemes[FileScheme])
      && (scheme !in r.schemes && FileScheme !in r.schemes ==>
            r'.lists == r.lists + [[]] && id == |r.lists|)
      && (forall s :: s in r.schemes ==> s in r'.schemes && r'.schemes[s] == r.schemes[s])
  {
    if scheme in r.schemes then (r, r.schemes[scheme])
    else if FileScheme in r.schemes then
      (r.(schemes := r.schemes[scheme := r.schemes[FileScheme]]), r.schemes[FileScheme])
    else
      (r.(lists := r.lists + [[]], schemes := r.schemes[scheme := |r.lists|]), |r.lists|)
  }

  /** The resolvers a scheme would be consulted with: its own array, or the one it would be
      seeded with. */
  function ResolversOf(r: Registry, scheme: string): (rs: seq<ResolverId>)
    requires Valid(r)
    ensures rs == GetResolvers(r, scheme).0.lists[GetResolvers(r, scheme).1]
  {
    if scheme in r.schemes then r.lists[r.schemes[scheme]]
    else if FileScheme in r.schemes then r.lists[r.schemes[FileScheme]]
    else []
  }

  /** `registerEditorComponentResolver`: the resolver goes to the front of its scheme's array,
      which every scheme bound to that same array sees; arrays of other schemes are untouched. */
  function RegisterResolver(r: Registry, scheme: string, resolver: ResolverId): (r': Registry)
    requires Valid(r)
    ensures Valid(r') && scheme in r'.schemes
    ensures ResolversOf(r', scheme) == [resolver] + ResolversOf(r, scheme)
    ensures r'.schemes.Keys == r.schemes.Keys + {scheme}
    ensures forall s :: s in r.schemes ==> r'.schemes[s] == r.schemes[s]
    ensures forall s :: s in r.schemes && r.schemes[s] == GetResolvers(r, scheme).1 ==>
      ResolversOf(r', s) == [resolver] + ResolversOf(r, s)
    ensures forall s :: s in r.schemes && r.schemes[s] != GetResolvers(r, scheme).1 ==>
      ResolversOf(r', s) == ResolversOf(r, s)
    ensures r'.components == r.components
  {
    var (r1, id) := GetResolvers(r, scheme);
    r1.(lists := r1.lists[id := [resolver] + r1.lists[id]])
  }

  /** `indexOf`: the position of the first occurrence of `x`, or `|s|` (for `-1`) if there is none. */
  function IndexOf(s: seq<ResolverId>, x: ResolverId): (i: nat)
    ensures i <= |s|
    ensures x !in s[..i]
    ensures i < |s| <==> x in s
    ensures i < |s| ==> s[i] == x
  {
    if s == [] then 0
    else if s[0] == x then 0
    else
      var i := IndexOf(s[1..], x);
      assert s[..i + 1] == [s[0]] + s[1..][..i];
      1 + i
  }

  /** The array without the first occurrence of `x` (`indexOf` then `splice`): the elements
      before and after it keep their order. */
  function RemoveFirst(s: seq<ResolverId>, x: ResolverId): (t: seq<ResolverId>)
    ensures x !in s ==> t == s
    ensures x in s ==> |t| == |s| - 1
    ensures x in s ==> exists i :: 0 <= i < |s| && s[i] == x && x !in s[..i] && t == s[..i] + s[i + 1..]
    ensures multiset(t) == multiset(s) - multiset{x}
    ensures forall y :: y != x ==> (y in t <==> y in s)
  {
    var i := IndexOf(s, x);
    if i < |s| then
      assert s == s[..i] + [s[i]] + s[i + 1..];
      s[..i] + s[i + 1..]
    else s
  }

  /** The disposer of a resolver registration: removes the first occurrence of it from the
      scheme's array, if any, as seen by every scheme bound to that array; arrays of other schemes
      are untouched. */
  function DisposeResolver(r: Registry, scheme: string, resolver: ResolverId): (r': Registry)
    requires Valid(r)
    ensures Valid(r') && r'.components == r.components
    ensures ResolversOf(r', scheme) == RemoveFirst(ResolversOf(r, scheme), resolver)
    ensures r'.schemes.Keys == r.schemes.Keys + {scheme}
    ensures forall s :: s in r.schemes ==> r'.schemes[s] == r.schemes[s]
    ensures forall s :: s in r.schemes && r.schemes[s] == GetResolvers(r, scheme).1 ==>
      ResolversOf(r', s) == RemoveFirst(ResolversOf(r, s), resolver)
    ensures forall s :: s in r.schemes && r.schemes[s] != GetResolvers(r, scheme).1 ==>
      ResolversOf(r', s) == ResolversOf(r, s)
  {
    var (r1, id) := GetResolvers(r, scheme);
    r1.(lists := r1.lists[id := RemoveFirst(r1.lists[id], resolver)])
  }

  /** The newest resolver of a scheme is consulted first. */
  lemma NewestFirst(r: Registry, scheme: string, a: ResolverId, b: ResolverId)
    requires Valid(r)
    ensures ResolversOf(RegisterResolver(RegisterResolver(r, scheme, a), scheme, b), scheme)[..2] == [b, a]
  {
  }

  /** Registering and then disposing a resolver restores the scheme's array; disposing again
      changes nothing when the resolver was not registered there before. */
  lemma DisposeUndoesRegister(r: Registry, scheme: string, resolver: ResolverId)
    requires Valid(r) && resolver !in ResolversOf(r, scheme)
    ensures var r1 := DisposeResolver(RegisterResolver(r, scheme, resolver), scheme, resolver);
      && ResolversOf(r1, scheme) == ResolversOf(r, scheme)
      && ResolversOf(DisposeResolver(r1, scheme, resolver), scheme) == ResolversOf(r, scheme)
  {
  }

  /** A scheme seeded from `file` shares its array: a resolver registered for it is also
      consulted first for `file` URIs. */
  lemma SeededSchemeSharesFileArray(r: Registry, scheme: string, resolver: ResolverId)
    requires Valid(r) && FileScheme in r.schemes && scheme !in r.schemes
    ensures ResolversOf(RegisterResolver(r, scheme, resolver), FileScheme)
            == [resolver] + ResolversOf(r, FileScheme)
  {
  }

  // ---------------------------------------------------------------------------------------------
  // Resolution

  /** What one resolver did with the results array it was given: left it (possibly extended in
      place) and let the loop continue, or called `resolve` with a final value. */
  datatype Outcome<T> = Continue(results: seq<T>) | Resolved(value: seq<T>)

  /** The value returned, how many resolvers ran, and whether one of them resolved. */
  datatype Resolution<T> = Resolution(results: seq<T>, consulted: nat, resolved: bool)

  /** The results array after the first `k` resolvers, each handed what the one before it left
      (a resolver that resolved hands on the value it resolved with). */
  function Threaded<T>(rs: seq<ResolverId>, results: seq<T>, act: (ResolverId, seq<T>) -> Outcome<T>, k: nat)
    : seq<T>
    requires k <= |rs|
  {
    if k == 0 then results
    else match act(rs[k - 1], Threaded(rs, results, act, k - 1))
      case Continue(next) => next
      case Resolved(value) => value
  }

  /** Threading through a list whose first resolver continues is threading through the rest from
      what that resolver left. */
  lemma {:induction false} ThreadedShift<T>(
    rs: seq<ResolverId>, results: seq<T>, act: (ResolverId, seq<T>) -> Outcome<T>, next: seq<T>, k: nat)
    requires rs != [] && act(rs[0], results) == Continue(next) && k < |rs|
    ensures Threaded(rs, results, act, k + 1) == Threaded(rs[1..], next, act, k)
  {
    if k > 0 {
      ThreadedShift(rs, results, act, next, k - 1);
      assert rs[1..][k - 1] == rs[k];
    }
  }

  /** The loop of `resolveEditorComponent` over a snapshot of the resolvers; `act` is what each
      resolver does for the resource at hand. The resolvers before the last one consulted all
      continued; the loop either stopped at the first that resolved and returns its value, or
      went through them all and returns what the last one left. */
  function RunResolvers<T>(rs: seq<ResolverId>, results: seq<T>, act: (ResolverId, seq<T>) -> Outcome<T>)
    : (res: Resolution<T>)
    ensures res.consulted <= |rs|
    ensures !res.resolved ==> res.consulted == |rs|
    ensures res.resolved ==> 1 <= res.consulted
    ensures forall k :: 0 <= k < |rs| && (k < res.consulted - 1 || !res.resolved) ==>
      act(rs[k], Threaded(rs, results, act, k)).Continue?
    ensures res.resolved ==>
      act(rs[res.consulted - 1], Threaded(rs, results, act, res.consulted - 1)) == Resolved(res.results)
    ensures !res.resolved ==> res.results == Threaded(rs, results, act, |rs|)
    decreases |rs|
  {
    if rs == [] then Resolution(results, 0, false)
    else match act(rs[0], results)
      case Resolved(value) => Resolution(value, 1, true)
      case Continue(next) =>
        var rest := RunResolvers(rs[1..], next, act);
        ThreadedShiftAll(rs, results, act, next);
        rest.(consulted := rest.consulted + 1)
  }

  /** `ThreadedShift` at every position. */
  lemma ThreadedShiftAll<T>(rs: seq<ResolverId>, results: seq<T>, act: (ResolverId, seq<T>) -> Outcome<T>, next: seq<T>)
    requires rs != [] && act(rs[0], results) == Continue(next)
    ensures forall k :: 0 <= k < |rs| ==> Threaded(rs, results, act, k + 1) == Threaded(rs[1..], next, act, k)
    ensures forall k :: 1 <= k < |rs| ==> rs[k] == rs[1..][k - 1]
  {
    forall k | 0 <= k < |rs|
      ensures Threaded(rs, results, act, k + 1) == Threaded(rs[1..], next, act, k)
    {
      ThreadedShift(rs, results, act, next, k);
    }
  }

  /** Once a resolver has resolved, the resolvers after it are never consulted. */
  lemma {:induction false} ResolvedStopsTheLoop<T>(
    rs: seq<ResolverId>, tail: seq<ResolverId>, results: seq<T>, act: (ResolverId, seq<T>) -> Outcome<T>)
    requires RunResolvers(rs, results, act).resolved
    ensures RunResolvers(rs + tail, results, act) == RunResolvers(rs, results, act)
    decreases |rs|
  {
    assert rs != [];
    assert (rs + tail)[0] == rs[0];
    match act(rs[0], results)
    case Resolved(value) =>
    case Continue(next) =>
      assert (rs + tail)[1..] == rs[1..] + tail;
      ResolvedStopsTheLoop(rs[1..], tail, next, act);
  }

  /** The first resolver that resolves decides the result, whatever comes after it. */
  lemma FirstClaimWins<T>(
    rid: ResolverId, tail: seq<ResolverId>, results: seq<T>, act: (ResolverId, seq<T>) -> Outcome<T>)
    requires act(rid, results).Resolved?
    ensures RunResolvers([rid] + tail, results, act) == Resolution(act(rid, results).value, 1, true)
  {
    assert ([rid] + tail)[0] == rid;
  }

  /** `resolveEditorComponent`: looks up (and possibly seeds) the resource's scheme, runs its
      resolvers from an empty results array, and returns what they produced. Seeding binds the
      scheme and nothing else, and no scheme's resolvers change. */
  function ResolveEditorComponent<T>(r: Registry, scheme: string, act: (ResolverId, seq<T>) -> Outcome<T>)
    : (res: (Registry, seq<T>))
    requires Valid(r)
    ensures Valid(res.0) && res.0.components == r.components
    ensures res.0 == GetResolvers(r, scheme).0
    ensures res.0.schemes.Keys == r.schemes.Keys + {scheme}
    ensures forall s :: ResolversOf(res.0, s) == ResolversOf(r, s)
    ensures ResolversOf(r, scheme) == [] ==> res.1 == []
    ensures res.1 == RunResolvers(ResolversOf(r, scheme), [], act).results
  {
    var (r1, id) := GetResolvers(r, scheme);
    (r1, RunResolvers(r1.lists[id], [], act).results)
  }
}

=== FILE: extension_worker.dfy ===
/** The decision logic of the worker extension host service
    (packages/kaitian-extension/src/browser/extension-worker.service.ts): which extensions run in
    the worker, the gate that holds activations back until the extension metadata has been pushed,
    and the three calls the worker makes back into the host. */
module ExtensionWorker {
  import opened Options

  // ---------------------------------------------------------------------------------------------
  // Extensions

  /** A URI, split into its components. */
  datatype Uri = Uri(scheme: string, authority: string, path: string, query: string, fragment: string)

  /** The parts of an extension record the service reads. `json` is what `toJSON()` returns,
      flattened to string-valued properties. */
  datatype Extension = Extension(
    id: string,
    path: string,
    location: Uri,                    // extensionLocation
    kaitianContributes: bool,         // packageJSON.kaitianContributes is truthy
    workerMain: Option<string>,       // contributes.workerMain
    legacyWorkerMain: Option<string>, // extendConfig.worker.main (the deprecated kaitian.js entry)
    json: map<string, string>)

  /** How `activeExtension` treats an extension. */
  datatype Route = Legacy | Contributed | Skip

  /** `activeExtension`'s test: a legacy worker entry wins whatever else is declared; otherwise
      both `kaitianContributes` and `contributes.workerMain` are needed. */
  function ActivationRoute(e: Extension): (r: Route)
    ensures Truthy(e.legacyWorkerMain) ==> r == Legacy
    ensures r == Skip <==> !Truthy(e.legacyWorkerMain) && !(e.kaitianContributes && Truthy(e.workerMain))
  {
    if Truthy(e.legacyWorkerMain) then Legacy
    else if e.kaitianContributes && Truthy(e.workerMain) then Contributed
    else Skip
  }

  /** The worker script `$getExtensions` announces: `contributes.workerMain` first, then the
      legacy entry. */
  function WorkerEntry(e: Extension): (main: Option<string>)
    ensures main.Some? ==> Truthy(main)
    ensures main.Some? <==> Truthy(e.workerMain) || Truthy(e.legacyWorkerMain)
    ensures Truthy(e.workerMain) ==> main == e.workerMain
  {
    if Truthy(e.workerMain) then e.workerMain
    else if Truthy(e.legacyWorkerMain) then e.legacyWorkerMain
    else None
  }

  /** Every extension that is activated has a worker script to announce. */
  lemma ActivatedExtensionsHaveEntry(e: Extension)
    ensures ActivationRoute(e) != Skip ==> WorkerEntry(e).Some?
  {
  }

  /** The two precedences are opposite: an extension declaring both entries is activated by the
      legacy path yet announced with its `workerMain` script. */
  lemma OppositePrecedence(e: Extension)
    requires Truthy(e.workerMain) && Truthy(e.legacyWorkerMain)
    requires e.workerMain != e.legacyWorkerMain
    ensures ActivationRoute(e) == Legacy
    ensures WorkerEntry(e) == e.workerMain && WorkerEntry(e) != e.legacyWorkerMain
  {
  }

  // ---------------------------------------------------------------------------------------------
  // Calls from the worker into the host

  /** The first position whose extension satisfies `p`. */
  function FindIndex(exts: seq<Extension>, p: Extension -> bool): (r: Option<nat>)
    ensures r.Some? ==> r.value < |exts| && p(exts[r.value])
    ensures r.Some? ==> forall j :: 0 <= j < r.value ==> !p(exts[j])
    ensures r.None? ==> forall j :: 0 <= j < |exts| ==> !p(exts[j])
  {
    if exts == [] then None
    else if p(exts[0]) then Some(0)
    else match FindIndex(exts[1..], p)
      case Some(i) => Some(i + 1)
      case None => None
  }

  /** `getExtension`: the first extension with the given id. */
  function GetExtension(exts: seq<Extension>, extensionId: string): (r: Option<Extension>)
    ensures r.Some? ==> r.value.id == extensionId
    ensures r.Some? ==>
      exists i :: 0 <= i < |exts| && exts[i] == r.value && forall j :: 0 <= j < i ==> exts[j].id != extensionId
    ensures r.None? <==> forall i :: 0 <= i < |exts| ==> exts[i].id != extensionId
  {
    match FindIndex(exts, (e: Extension) => e.id == extensionId)
    case Some(i) => Some(exts[i])
    case None => None
  }

  /** `$activateExtension(path)`: the extension whose `activate()` runs, matched by path, not by
      id; nothing runs when no path matches. */
  function ActivateByPath(exts: seq<Extension>, extensionPath: string): (r: Option<Extension>)
    ensures r.Some? ==> r.value.path == extensionPath
    ensures r.Some? ==>
      exists i :: 0 <= i < |exts| && exts[i] == r.value && forall j :: 0 <= j < i ==> exts[j].path != extensionPath
    ensures r.None? <==> forall i :: 0 <= i < |exts| ==> exts[i].path != extensionPath
  {
    match FindIndex(exts, (e: Extension) => e.path == extensionPath)
    case Some(i) => Some(exts[i])
    case None => None
  }

  /** The property `getWorkerExtensionProps` adds to the serialised extension. */
  const WorkerScriptPathKey: string := "workerScriptPath"

  /** `extensionLocation.with({ path: posix.join(extensionLocation.path, workerMain) })`: the
      location with only its path replaced; `join` stands for `posix.join`. */
  function ScriptUri(location: Uri, main: string, join: (string, string) -> string): (u: Uri)
    ensures u.path == join(location.path, main)
    ensures u.scheme == location.scheme && u.authority == location.authority
    ensures u.query == location.query && u.fragment == location.fragment
  {
    location.(path := join(location.path, main))
  }

  /** `getWorkerExtensionProps`: the extension's JSON plus `workerScriptPath`, the formatted URI of
      the worker script next to the extension; `format` stands for `URI.toString()`. */
  function WorkerExtensionProps(e: Extension, main: string, join: (string, string) -> string, format: Uri -> string)
    : (props: map<string, string>)
    ensures props.Keys == e.json.Keys + {WorkerScriptPathKey}
    ensures props[WorkerScriptPathKey] == format(ScriptUri(e.location, main, join))
    ensures forall k :: k in e.json && k != WorkerScriptPathKey ==> props[k] == e.json[k]
  {
    e.json[WorkerScriptPathKey := format(ScriptUri(e.location, main, join))]
  }

  /** The serialised form of one extension as `$getExtensions` sends it: plain JSON without a
      worker script, otherwise the worker properties for the announced script. */
  function Serialize(e: Extension, join: (string, string) -> string, format: Uri -> string): (j: map<string, string>)
    ensures WorkerEntry(e).None? ==> j == e.json
    ensures WorkerEntry(e).Some? ==> j == WorkerExtensionProps(e, WorkerEntry(e).value, join, format)
  {
    match WorkerEntry(e)
    case Some(main) => WorkerExtensionProps(e, main, join, format)
    case None => e.json
  }

  /** `$getExtensions`: every known extension, in order, serialised. */
  function GetExtensions(exts: seq<Extension>, join: (string, string) -> string, format: Uri -> string)
    : (r: seq<map<string, string>>)
    ensures |r| == |exts|
    ensures forall i :: 0 <= i < |exts| && WorkerEntry(exts[i]).None? ==> r[i] == exts[i].json
    ensures forall i :: 0 <= i < |exts| && WorkerEntry(exts[i]).Some? ==>
      && WorkerScriptPathKey in r[i]
      && r[i][WorkerScriptPathKey] == format(ScriptUri(exts[i].location, WorkerEntry(exts[i]).value, join))
  {
    seq(|exts|, i requires 0 <= i < |exts| => Serialize(exts[i], join, format))
  }

  /** Reading `$getExtensions`' output back gives every property of every extension's own JSON
      unchanged, except `workerScriptPath`, which is present exactly when a worker script is
      declared. */
  lemma GetExtensionsKeepsProperties(
    exts: seq<Extension>, join: (string, string) -> string, format: Uri -> string, i: nat, k: string)
    requires i < |exts| && k != WorkerScriptPathKey
    ensures k in GetExtensions(exts, join, format)[i] <==> k in exts[i].json
    ensures k in exts[i].json ==> GetExtensions(exts, join, format)[i][k] == exts[i].json[k]
    ensures WorkerEntry(exts[i]).Some? ==> WorkerScriptPathKey in GetExtensions(exts, join, format)[i]
    ensures WorkerEntry(exts[i]).None? ==>
      (WorkerScriptPathKey in GetExtensions(exts, join, format)[i] <==> WorkerScriptPathKey in exts[i].json)
  {
  }

  const DefaultStaticServicePath: string := "http://127.0.0.1:8000"

  /** `$getStaticServicePath`: the configured path unless it is unset or empty. */
  function StaticServicePath(configured: Option<string>): (p: string)
    ensures p != ""
    ensures Truthy(configured) ==> p == configured.value
    ensures !Truthy(configured) ==> p == DefaultStaticServicePath
  {
    if Truthy(configured) then configured.value else DefaultStaticServicePath
  }

  // ---------------------------------------------------------------------------------------------
  // The activation gate

  /** Where `activate()` stands: spawning the worker, installing the API proxy, waiting for the
      metadata push to return, returned, or rejected because the worker could not start. */
  datatype Phase = Idle | Spawning | InstallingApi | PushingMetadata | Returned | Failed

  /** Calls the host makes on the worker's extension service. */
  datatype RemoteCall = UpdateExtHostData | ActivateExtension(extensionId: string)

  /** The service's state: configuration, the known extensions, the progress of `activate()`,
      whether a protocol exists, the `ready` and "metadata pushed" signals, the activations
      waiting for that signal, every remote call issued so far, and the number of calls issued
      before the signal fired. */
  datatype Host = Host(
    extWorkerHost: bool,
    extensions: seq<Extension>,
    phase: Phase,
    protocol: bool,
    ready: bool,
    updated: bool,
    waiting: seq<string>,
    calls: seq<RemoteCall>,
    gate: nat)

  /** The service as constructed: no extensions, `activate()` not called, no protocol, neither
      signal resolved, nothing waiting and no remote call. */
  function Init(extWorkerHost: bool): (h: Host)
    ensures Inv(h)
    ensures h.extWorkerHost == extWorkerHost && h.extensions == [] && h.phase == Idle
    ensures !h.protocol && !h.ready && !h.updated
    ensures h.waiting == [] && h.calls == [] && h.gate == 0
  {
    Host(extWorkerHost, [], Idle, false, false, false, [], [], 0)
  }

  /** What holds in every reachable state; the first four conjuncts are the ordering promises. */
  ghost predicate Inv(h: Host) {
    && h.gate <= |h.calls|
    // no activation call before the metadata push returned, and none without a worker host
    && (forall i :: 0 <= i < |h.calls| && h.calls[i].ActivateExtension? ==>
          h.updated && h.gate <= i && h.extWorkerHost)
    // the signal fires only after a metadata push was issued
    && (h.updated ==> UpdateExtHostData in h.calls[..h.gate])
    // no remote call at all without a protocol, and `ready` resolved before any
    && (|h.calls| > 0 ==> h.protocol && h.ready)
    && h.ready == h.protocol
    && (h.updated <==> h.phase == Returned && h.protocol)
    && (h.phase in {Idle, Spawning, Failed} ==> !h.protocol)
    && (h.phase in {InstallingApi, PushingMetadata} ==> h.protocol)
    && (h.phase == PushingMetadata ==> UpdateExtHostData in h.calls)
    && (h.updated ==> h.waiting == [])
    && (!h.extWorkerHost ==> h.waiting == [])
  }

  /** The calls that release the waiting activations, in the order they were requested. */
  function ActivationCalls(ids: seq<string>): (cs: seq<RemoteCall>)
    ensures |cs| == |ids|
    ensures forall i :: 0 <= i < |ids| ==> cs[i] == ActivateExtension(ids[i])
  {
    seq(|ids|, i requires 0 <= i < |ids| => ActivateExtension(ids[i]))
  }

  /** `activate()` is called. */
  function OnActivate(h: Host): (h': Host)
    ensures h.phase == Idle ==> h' == h.(phase := Spawning)
    ensures h.phase != Idle ==> h' == h
  {
    if h.phase == Idle then h.(phase := Spawning) else h
  }

  /** The worker process was created: with a protocol, `ready` resolves at once; without one,
      `activate()` returns and neither signal fires. */
  function OnSpawnSettled(h: Host, withProtocol: bool): (h': Host)
    ensures h.phase == Spawning && withProtocol ==>
      h' == h.(phase := InstallingApi, protocol := true, ready := true)
    ensures h.phase == Spawning && !withProtocol ==> h' == h.(phase := Returned)
    ensures h.phase != Spawning ==> h' == h
    ensures h'.calls == h.calls && h'.updated == h.updated
  {
    if h.phase != Spawning then h
    else if withProtocol then h.(phase := InstallingApi, protocol := true, ready := true)
    else h.(phase := Returned)
  }

  /** Creating the worker failed: `activate()` rejects. */
  function OnSpawnFailed(h: Host): (h': Host)
    ensures h.phase == Spawning ==> h' == h.(phase := Failed)
    ensures h.phase != Spawning ==> h' == h
  {
    if h.phase == Spawning then h.(phase := Failed) else h
  }

  /** The worker API proxy is installed: the metadata push `$updateExtHostData` is issued. */
  function OnApiProxyInstalled(h: Host): (h': Host)
    ensures h.phase == InstallingApi ==>
      h' == h.(phase := PushingMetadata, calls := h.calls + [UpdateExtHostData])
    ensures h.phase != InstallingApi ==> h' == h
  {
    if h.phase == InstallingApi then h.(phase := PushingMetadata, calls := h.calls + [UpdateExtHostData])
    else h
  }

  /** The metadata push returned: the signal fires, and the activations that were waiting for it
      are issued in the order they were requested. */
  function OnMetadataPushed(h: Host): (h': Host)
    ensures h.phase == PushingMetadata ==>
      && h'.updated && h'.phase == Returned && h'.waiting == [] && h'.gate == |h.calls|
      && h'.calls == h.calls + ActivationCalls(h.waiting)
    ensures h.phase == PushingMetadata ==>
      h' == h.(phase := Returned, updated := true, gate := |h.calls|,
               calls := h.calls + ActivationCalls(h.waiting), waiting := [])
    ensures h.phase != PushingMetadata ==> h' == h
    ensures h'.extensions == h.extensions
  {
    if h.phase == PushingMetadata then
      h.(phase := Returned, updated := true, gate := |h.calls|,
         calls := h.calls + ActivationCalls(h.waiting), waiting := [])
    else h
  }

  /** `activeExtension(e)`: a skipped extension, or any extension without a configured worker
      host, changes nothing; otherwise the activation is issued if the signal has fired and
      waits for it if not. */
  function OnActiveExtension(h: Host, e: Extension): (h': Host)
    ensures ActivationRoute(e) == Skip || !h.extWorkerHost ==> h' == h
    ensures ActivationRoute(e) != Skip && h.extWorkerHost && h.updated ==>
      h' == h.(calls := h.calls + [ActivateExtension(e.id)])
    ensures ActivationRoute(e) != Skip && h.extWorkerHost && !h.updated ==>
      h' == h.(waiting := h.waiting + [e.id])
  {
    if ActivationRoute(e) == Skip || !h.extWorkerHost then h
    else if h.updated then h.(calls := h.calls + [ActivateExtension(e.id)])
    else h.(waiting := h.waiting + [e.id])
  }

  /** `updateExtensionData(exts)`: the list is replaced wholesale, and the metadata is pushed
      again only if a protocol exists. */
  function OnUpdateExtensionData(h: Host, exts: seq<Extension>): (h': Host)
    ensures h'.extensions == exts
    ensures h.protocol ==> h'.calls == h.calls + [UpdateExtHostData]
    ensures !h.protocol ==> h'.calls == h.calls
    ensures h'.updated == h.updated && h'.waiting == h.waiting && h'.phase == h.phase
    ensures h' == h.(extensions := exts, calls := h'.calls)
  {
    h.(extensions := exts, calls := if h.protocol then h.calls + [UpdateExtHostData] else h.calls)
  }

  /** What can happen to the service. */
  datatype Event =
    | Activate
    | SpawnSettled(withProtocol: bool)
    | SpawnFailed
    | ApiProxyInstalled
    | MetadataPushed
    | ActiveExtension(extension: Extension)
    | UpdateExtensionData(extensions: seq<Extension>)

  function Step(h: Host, ev: Event): Host {
    match ev
    case Activate => OnActivate(h)
    case SpawnSettled(p) => OnSpawnSettled(h, p)
    case SpawnFailed => OnSpawnFailed(h)
    case ApiProxyInstalled => OnApiProxyInstalled(h)
    case MetadataPushed => OnMetadataPushed(h)
    case ActiveExtension(e) => OnActiveExtension(h, e)
    case UpdateExtensionData(exts) => OnUpdateExtensionData(h, exts)
  }

  function Run(h: Host, evs: seq<Event>): Host
    decreases |evs|
  {
    if evs == [] then h else Run(Step(h, evs[0]), evs[1..])
  }

  /** Every event keeps the invariant. */
  lemma StepKeepsInv(h: Host, ev: Event)
    requires Inv(h)
    ensures Inv(Step(h, ev))
  {
    match ev
    case MetadataPushed => MetadataPushedKeepsInv(h);
    case ActiveExtension(e) => ActiveExtensionKeepsInv(h, e);
    case ApiProxyInstalled => ApiProxyInstalledKeepsInv(h);
    case UpdateExtensionData(exts) => UpdateExtensionDataKeepsInv(h, exts);
    case _ =>
  }

  // The events that issue calls, one lemma each.

  lemma MetadataPushedKeepsInv(h: Host)
    requires Inv(h)
    ensures Inv(OnMetadataPushed(h))
  {
    var h' := OnMetadataPushed(h);
    if h.phase == PushingMetadata {
      assert h'.calls[..h'.gate] == h.calls;
      assert |h'.calls| > |h.calls| ==> h.waiting != [];
    }
  }

  lemma ActiveExtensionKeepsInv(h: Host, e: Extension)
    requires Inv(h)
    ensures Inv(OnActiveExtension(h, e))
  {
    var h' := OnActiveExtension(h, e);
    if h'.calls != h.calls {
      assert h'.calls[..h'.gate] == h.calls[..h.gate];
    }
  }

  lemma ApiProxyInstalledKeepsInv(h: Host)
    requires Inv(h)
    ensures Inv(OnApiProxyInstalled(h))
  {
    var h' := OnApiProxyInstalled(h);
    if h.phase == InstallingApi {
      assert h'.calls[..h'.gate] == h.calls[..h.gate];
      assert h'.calls[|h.calls|] == UpdateExtHostData;
    }
  }

  lemma UpdateExtensionDataKeepsInv(h: Host, exts: seq<Extension>)
    requires Inv(h)
    ensures Inv(OnUpdateExtensionData(h, exts))
  {
    var h' := OnUpdateExtensionData(h, exts);
    if h.protocol {
      assert h'.calls[..h'.gate] == h.calls[..h.gate];
      assert h'.calls[|h.calls|] == UpdateExtHostData;
    }
  }

  /** Every run from a reachable state stays reachable-looking: the ordering promises hold after
      any sequence of events. */
  lemma {:induction false} RunKeepsInv(h: Host, evs: seq<Event>)
    requires Inv(h)
    ensures Inv(Run(h, evs))
    decreases |evs|
  {
    if evs != [] {
      StepKeepsInv(h, evs[0]);
      RunKeepsInv(Step(h, evs[0]), evs[1..]);
    }
  }

  /** Whatever happens, no extension is activated in the worker before the metadata push
      returned, and none at all when no worker host is configured: every activation call comes
      after the first `gate` calls, the calls issued before the push returned, which include the
      push itself. */
  lemma NoActivationBeforeMetadata(extWorkerHost: bool, evs: seq<Event>)
    ensures var h := Run(Init(extWorkerHost), evs);
      forall i :: 0 <= i < |h.calls| && h.calls[i].ActivateExtension? ==>
        && h.extWorkerHost && h.updated && h.gate <= i
        && UpdateExtHostData in h.calls[..h.gate]
        && UpdateExtHostData in h.calls[..i]
  {
    var h := Run(Init(extWorkerHost), evs);
    RunKeepsInv(Init(extWorkerHost), evs);
    forall i | 0 <= i < |h.calls| && h.calls[i].ActivateExtension?
      ensures UpdateExtHostData in h.calls[..i]
    {
      assert h.calls[..h.gate] == h.calls[..i][..h.gate];
    }
  }

  /** An extension declaring a worker entry, activated before the worker is up, is activated
      exactly once, right after the metadata push returns. */
  lemma EarlyActivationWaits(e: Extension)
    requires e.kaitianContributes && Truthy(e.workerMain)
    ensures Run(Init(true), [Activate, ActiveExtension(e), SpawnSettled(true), ApiProxyInstalled, MetadataPushed]).calls
            == [UpdateExtHostData, ActivateExtension(e.id)]
  {
    var h1 := Step(Init(true), Activate);
    var h2 := Step(h1, ActiveExtension(e));
    assert h2.waiting == [e.id];
    var h3 := Step(h2, SpawnSettled(true));
    var h4 := Step(h3, ApiProxyInstalled);
    var h5 := Step(h4, MetadataPushed);
    assert h5.calls == [UpdateExtHostData, ActivateExtension(e.id)];
    var evs := [Activate, ActiveExtension(e), SpawnSettled(true), ApiProxyInstalled, MetadataPushed];
    calc {
      Run(Init(true), evs);
      Run(h1, evs[1..]);
      { assert evs[1..][0] == ActiveExtension(e); }
      Run(h2, evs[2..]);
      { assert evs[2..][1..] == evs[3..]; }
      Run(h3, evs[3..]);
      { assert evs[3..][1..] == evs[4..]; }
      Run(h4, evs[4..]);
      { assert evs[4..][1..] == []; }
      Run(h5, []);
    }
  }

  /** The gate is the number of calls issued when the push returned: it is set on the event that
      fires the signal, and from then on neither it nor the calls before it change. No event
      rewrites calls already issued. */
  lemma SignalFixesGate(h: Host, ev: Event)
    requires Inv(h)
    ensures |Step(h, ev).calls| >= |h.calls| && Step(h, ev).calls[..|h.calls|] == h.calls
    ensures !h.updated && Step(h, ev).updated ==> ev.MetadataPushed? && Step(h, ev).gate == |h.calls|
    ensures h.updated ==> Step(h, ev).updated && Step(h, ev).gate == h.gate
  {
    var h' := Step(h, ev);
    match ev
    case MetadataPushed =>
      if h.phase == PushingMetadata {
        assert h'.calls == h.calls + ActivationCalls(h.waiting);
      }
    case ActiveExtension(e) =>
      if h'.calls != h.calls {
        assert h'.calls == h.calls + [ActivateExtension(e.id)];
      }
    case ApiProxyInstalled =>
    case UpdateExtensionData(exts) =>
    case _ =>
  }

  /** Without a protocol the signals never fire, so nothing is ever activated. */
  lemma NoProtocolNoSignals(h: Host)
    requires Inv(h) && h.phase == Spawning
    ensures !OnSpawnSettled(h, false).ready && !OnSpawnSettled(h, false).updated
    ensures OnSpawnSettled(h, false).calls == h.calls == []
  {
  }
}

=== FILE: keymap.dfy ===
/** Keyboard layouts: the compact serialised key table, layout ids, and the comparison of a
    layout's key mapping against an observed one (packages/core-common/src/keyboard/keymap.ts). */
module Keymap {
  import opened Options

  // ---------------------------------------------------------------------------------------------
  // Values of the serialised table

  /** A cell of a serialised key entry (`string | number`), or `undefined` when an index past the
      end of the entry is read. Numbers are modelled as integers. */
  datatype JsValue = Undefined | Str(s: string) | Num(n: int)

  /** `entry[i]`: reading past the end yields `undefined`. */
  function At(entry: seq<JsValue>, i: nat): JsValue {
    if i < |entry| then entry[i] else Undefined
  }

  predicate IsDigit(c: char) {
    '0' <= c <= '9'
  }

  /** The value of a string of decimal digits, most significant first. */
  function DecimalValue(s: string): nat
    requires forall i :: 0 <= i < |s| ==> IsDigit(s[i])
  {
    if s == [] then 0
    else
      assert IsDigit(s[|s| - 1]);
      10 * DecimalValue(s[..|s| - 1]) + (s[|s| - 1] as int - '0' as int)
  }

  /** `Number(v)` as seen by the bit tests of the decoder: numbers are themselves, a string of
      decimal digits (including the empty string) is its value, and everything else is `NaN`,
      which every bitwise operator reads as 0. */
  function MaskValue(v: JsValue): (m: int)
    ensures v.Num? ==> m == v.n
    ensures v.Str? && (forall i :: 0 <= i < |v.s| ==> IsDigit(v.s[i])) ==> m == DecimalValue(v.s)
    ensures v.Str? && (exists i :: 0 <= i < |v.s| && !IsDigit(v.s[i])) ==> m == 0
    ensures v.Undefined? ==> m == 0
  {
    match v
    case Num(n) => n
    case Str(s) => if forall i :: 0 <= i < |s| ==> IsDigit(s[i]) then DecimalValue(s) else 0
    case Undefined => 0
  }

  /** `(mask & 2^k) > 0` for a small bit index `k`. Dafny's `/` on a positive divisor rounds
      down, so this is bit `k` of the 32-bit two's complement form that `&` works on. */
  predicate BitSet(mask: int, k: nat)
    requires k < 4
  {
    if k == 0 then mask % 2 == 1
    else if k == 1 then (mask / 2) % 2 == 1
    else if k == 2 then (mask / 4) % 2 == 1
    else (mask / 8) % 2 == 1
  }

  // ---------------------------------------------------------------------------------------------
  // Decoded key mappings

  /** One decoded key: the four produced characters, the Windows virtual key and the four
      dead-key flags. */
  datatype KeyMapping = KeyMapping(
    value: JsValue,
    vkey: JsValue,
    withShift: JsValue,
    withAltGr: JsValue,
    withShiftAltGr: JsValue,
    valueIsDeadKey: bool,
    withShiftIsDeadKey: bool,
    withAltGrIsDeadKey: bool,
    withShiftAltGrIsDeadKey: bool)

  /** What an empty serialised entry decodes to. */
  const EmptyKey: KeyMapping :=
    KeyMapping(Str(""), Undefined, Str(""), Str(""), Str(""), false, false, false, false)

  function Bit(b: bool): nat {
    if b then 1 else 0
  }

  /** The dead-key flags reassembled into a 4-bit mask (value = bit 0 ... withShiftAltGr = bit 3). */
  function DeadKeyMask(k: KeyMapping): nat {
    Bit(k.valueIsDeadKey) + 2 * Bit(k.withShiftIsDeadKey)
    + 4 * Bit(k.withAltGrIsDeadKey) + 8 * Bit(k.withShiftAltGrIsDeadKey)
  }

  /** The four characters of a key, in table order. */
  function Chars(k: KeyMapping): seq<JsValue> {
    [k.value, k.withShift, k.withAltGr, k.withShiftAltGr]
  }

  /** Quotient and remainder by 2, 4, 8 or 16 are determined by `m == d * q + r`, `0 <= r < d`. */
  lemma DivModUnique(m: int, d: int, q: int, r: int)
    requires d == 2 || d == 4 || d == 8 || d == 16
    requires m == d * q + r && 0 <= r < d
    ensures m / d == q && m % d == r
  {
    if d == 2 {
      assert m == 2 * q + r;
    } else if d == 4 {
      assert m == 4 * q + r;
    } else if d == 8 {
      assert m == 8 * q + r;
    } else {
      assert m == 16 * q + r;
    }
  }

  /** A bit below 4 of an integer is the same bit of its remainder modulo 16. */
  lemma BitOfRemainder(m: int, k: nat)
    requires k < 4
    ensures BitSet(m, k) == BitSet(m % 16, k)
  {
    var q, r := m / 16, m % 16;
    assert m == 16 * q + r;
    if k == 0 {
      DivModUnique(m, 2, 8 * q + r / 2, r % 2);
    } else if k == 1 {
      DivModUnique(m, 2, 8 * q + r / 2, r % 2);
      var x := r / 2;
      DivModUnique(8 * q + x, 2, 4 * q + x / 2, x % 2);
    } else if k == 2 {
      DivModUnique(m, 4, 4 * q + r / 4, r % 4);
      var x := r / 4;
      DivModUnique(4 * q + x, 2, 2 * q + x / 2, x % 2);
    } else {
      DivModUnique(m, 8, 2 * q + r / 8, r % 8);
      var x := r / 8;
      DivModUnique(2 * q + x, 2, q + x / 2, x % 2);
    }
  }

  /** `Number` on a few strings: the empty string is 0, a digit string its value, anything else
      `NaN` (read as 0). */
  lemma MaskValueOfStrings()
    ensures MaskValue(Str("")) == 0
    ensures MaskValue(Str("13")) == 13
    ensures MaskValue(Str("0x1")) == 0
  {
    assert !IsDigit("0x1"[1]);
    assert DecimalValue("1") == 1;
    assert "13"[..1] == "1";
  }

  /** Bits 0-3 of any integer reassemble its remainder modulo 16. */
  lemma LowBits(m: int)
    ensures (if BitSet(m, 0) then 1 else 0) + 2 * (if BitSet(m, 1) then 1 else 0)
          + 4 * (if BitSet(m, 2) then 1 else 0) + 8 * (if BitSet(m, 3) then 1 else 0) == m % 16
  {
    BitOfRemainder(m, 0);
    BitOfRemainder(m, 1);
    BitOfRemainder(m, 2);
    BitOfRemainder(m, 3);
    var r := m % 16;
    assert 0 <= r < 16;
  }

  /** Decodes one serialised entry `[value, withShift, withAltGr, withShiftAltGr, mask, vkey?]`. */
  function DecodeEntry(entry: seq<JsValue>): (k: KeyMapping)
    ensures |entry| == 0 ==> k == EmptyKey
    ensures |entry| > 0 ==> Chars(k) == [At(entry, 0), At(entry, 1), At(entry, 2), At(entry, 3)]
    ensures |entry| > 0 ==> DeadKeyMask(k) == MaskValue(At(entry, 4)) % 16
    ensures k.vkey != Undefined ==> |entry| == 6 && k.vkey == entry[5]
    ensures |entry| == 6 ==> k.vkey == entry[5]
  {
    if |entry| > 0 then
      var mask := MaskValue(At(entry, 4));
      LowBits(mask);
      KeyMapping(
        At(entry, 0),
        if |entry| == 6 then entry[5] else Undefined,
        At(entry, 1), At(entry, 2), At(entry, 3),
        BitSet(mask, 0), BitSet(mask, 1), BitSet(mask, 2), BitSet(mask, 3))
    else
      EmptyKey
  }

  /** The table format the decoder reads, written out: the four characters, the dead-key mask as
      a number, and the virtual key only when there is one. */
  function EncodeEntry(k: KeyMapping): (entry: seq<JsValue>)
    ensures 5 <= |entry| <= 6
  {
    Chars(k) + [Num(DeadKeyMask(k))] + (if k.vkey == Undefined then [] else [k.vkey])
  }

  /** A serialised entry as the encoder writes it: five or six cells, a numeric mask below 16 and
      a defined virtual key in the sixth cell if there is one. */
  predicate WellFormedEntry(entry: seq<JsValue>) {
    && (|entry| == 5 || |entry| == 6)
    && entry[4].Num? && 0 <= entry[4].n < 16
    && (|entry| == 6 ==> entry[5] != Undefined)
  }

  /** Decoding undoes encoding: every field of a key survives the table format. */
  lemma DecodeEncode(k: KeyMapping)
    ensures DecodeEntry(EncodeEntry(k)) == k
  {
    var e := EncodeEntry(k);
    var d := DecodeEntry(e);
    var m := DeadKeyMask(k);
    assert MaskValue(At(e, 4)) == m;
    assert BitSet(m, 0) == k.valueIsDeadKey;
    assert BitSet(m, 1) == k.withShiftIsDeadKey;
    assert BitSet(m, 2) == k.withAltGrIsDeadKey;
    assert BitSet(m, 3) == k.withShiftAltGrIsDeadKey;
  }

  /** Encoding undoes decoding on every well-formed entry. */
  lemma EncodeDecode(entry: seq<JsValue>)
    requires WellFormedEntry(entry)
    ensures EncodeEntry(DecodeEntry(entry)) == entry
  {
    var k := DecodeEntry(entry);
    assert DeadKeyMask(k) == entry[4].n;
    assert Chars(k) == entry[..4];
    if |entry| == 6 {
      assert entry == entry[..4] + [entry[4]] + [entry[5]];
    } else {
      assert entry == entry[..4] + [entry[4]];
    }
  }

  /** `deserializeMapping`: decodes every entry of a serialised table. */
  function DeserializeMapping(serialized: map<string, seq<JsValue>>): (m: map<string, KeyMapping>)
    ensures m.Keys == serialized.Keys
    ensures forall key :: key in serialized ==> m[key] == DecodeEntry(serialized[key])
  {
    map key | key in serialized :: DecodeEntry(serialized[key])
  }

  /** The serialised form of a decoded table, entry by entry. */
  function SerializeMapping(m: map<string, KeyMapping>): (s: map<string, seq<JsValue>>)
    ensures s.Keys == m.Keys
    ensures forall key :: key in s ==> WellFormedEntry(s[key])
  {
    map key | key in m :: EncodeEntry(m[key])
  }

  /** Decoding a serialised table undoes serialising it, key set and entries alike. */
  lemma DeserializeSerialize(m: map<string, KeyMapping>)
    ensures DeserializeMapping(SerializeMapping(m)) == m
  {
    var d := DeserializeMapping(SerializeMapping(m));
    forall key | key in m
      ensures d[key] == m[key]
    {
      DecodeEncode(m[key]);
    }
  }

  // ---------------------------------------------------------------------------------------------
  // Layout descriptions and ids

  /** The fields of a Windows, Mac or Linux layout description that the model reads: `name`
      (Windows), `id` (Windows and Mac), `layout` (Linux), and the user-layout flag. */
  datatype LayoutInfo = LayoutInfo(
    name: Option<string>,
    id: Option<string>,
    layout: Option<string>,
    isUserKeyboardLayout: bool)

  /** `getKeyboardLayoutId`: the first non-empty of `name` and `id`, else `layout` as it is. */
  function LayoutId(l: LayoutInfo): (r: Option<string>)
    ensures r == l.name || r == l.id || r == l.layout
    ensures Truthy(r) <==> Truthy(l.name) || Truthy(l.id) || Truthy(l.layout)
  {
    if Truthy(l.name) then l.name
    else if Truthy(l.id) then l.id
    else l.layout
  }

  /** The id takes `name` over `id` over `layout`. */
  lemma LayoutIdPriority(l: LayoutInfo)
    ensures Truthy(l.name) ==> LayoutId(l) == l.name
    ensures !Truthy(l.name) && Truthy(l.id) ==> LayoutId(l) == l.id
    ensures !Truthy(l.name) && !Truthy(l.id) ==> LayoutId(l) == l.layout
    ensures LayoutId(l) == LayoutId(l.(isUserKeyboardLayout := !l.isUserKeyboardLayout))
  {
  }

  // ---------------------------------------------------------------------------------------------
  // KeymapInfo

  datatype KeymapInfo = KeymapInfo(
    layout: LayoutInfo,
    secondaryLayouts: seq<LayoutInfo>,
    mapping: map<string, KeyMapping>,
    isUserKeyboardLayout: bool)

  /** The layout object carries the same user-layout flag as the keymap that owns it. */
  predicate FlagsAgree(k: KeymapInfo) {
    k.layout.isUserKeyboardLayout == k.isUserKeyboardLayout
  }

  /** `!!flag` for an optional boolean argument. */
  function IsSet(flag: Option<bool>): bool {
    flag.Some? && flag.value
  }

  /** The `KeymapInfo` constructor: decodes the serialised mapping and stamps the user-layout
      flag on both the keymap and its layout description. */
  function NewKeymapInfo(
    layout: LayoutInfo, secondaryLayouts: seq<LayoutInfo>,
    serialized: map<string, seq<JsValue>>, isUserKeyboardLayout: Option<bool>): (k: KeymapInfo)
    ensures FlagsAgree(k)
    ensures k.isUserKeyboardLayout <==> isUserKeyboardLayout == Some(true)
    ensures k.mapping.Keys == serialized.Keys
    ensures k.mapping == DeserializeMapping(serialized)
    ensures k.layout == layout.(isUserKeyboardLayout := k.isUserKeyboardLayout)
    ensures LayoutId(k.layout) == LayoutId(layout) && k.secondaryLayouts == secondaryLayouts
  {
    var flag := IsSet(isUserKeyboardLayout);
    KeymapInfo(layout.(isUserKeyboardLayout := flag), secondaryLayouts,
               DeserializeMapping(serialized), flag)
  }

  /** A keymap built from a serialised mapping holds exactly the mapping that was serialised. */
  lemma ConstructedFromSerialized(
    layout: LayoutInfo, secondaryLayouts: seq<LayoutInfo>, m: map<string, KeyMapping>, flag: Option<bool>)
    ensures NewKeymapInfo(layout, secondaryLayouts, SerializeMapping(m), flag).mapping == m
  {
    DeserializeSerialize(m);
  }

  /** `createKeyboardLayoutFromDebugInfo`: a user layout whose mapping is `value` verbatim; the
      `isUserKeyboardLayout` argument is ignored. */
  function CreateKeyboardLayoutFromDebugInfo(
    layout: LayoutInfo, value: map<string, KeyMapping>, isUserKeyboardLayout: Option<bool>): (k: KeymapInfo)
    ensures k.isUserKeyboardLayout && FlagsAgree(k)
    ensures k.mapping == value && k.secondaryLayouts == []
    ensures k.layout == layout.(isUserKeyboardLayout := true)
    ensures LayoutId(k.layout) == LayoutId(layout)
  {
    var k := NewKeymapInfo(layout, [], map[], Some(true));
    k.(mapping := value)
  }

  /** `update`: takes over every field of `other`, stamping `other`'s flag on the shared layout. */
  function Update(self: KeymapInfo, other: KeymapInfo): (r: KeymapInfo)
    ensures FlagsAgree(r)
    ensures r.isUserKeyboardLayout == other.isUserKeyboardLayout
    ensures r.mapping == other.mapping && r.secondaryLayouts == other.secondaryLayouts
    ensures r.layout == other.layout.(isUserKeyboardLayout := other.isUserKeyboardLayout)
    ensures LayoutId(r.layout) == LayoutId(other.layout)
  {
    KeymapInfo(other.layout.(isUserKeyboardLayout := other.isUserKeyboardLayout),
               other.secondaryLayouts, other.mapping, other.isUserKeyboardLayout)
  }

  // ---------------------------------------------------------------------------------------------
  // Scoring and comparison

  /** Keys `getScore` ignores: Chromium's Backslash/KeyQ on Windows, Backspace/Escape on Linux. */
  predicate ScoreSkips(key: string, isWindows: bool, isLinux: bool) {
    || (isWindows && (key == "Backslash" || key == "KeyQ"))
    || (isLinux && (key == "Backspace" || key == "Escape"))
  }

  /** Keys `fuzzyEqual` ignores: only the Windows pair. */
  predicate FuzzySkips(key: string, isWindows: bool) {
    isWindows && (key == "Backslash" || key == "KeyQ")
  }

  /** The keys of `other` that cost a point: not skipped, and absent from `mine` or producing a
      different base character. */
  ghost function Mismatches(
    mine: map<string, KeyMapping>, other: map<string, KeyMapping>, isWindows: bool, isLinux: bool): set<string>
  {
    set key | key in other && !ScoreSkips(key, isWindows, isLinux)
                && (key !in mine || mine[key].value != other[key].value)
  }

  /** Every key of `other` that `fuzzyEqual` looks at is present in `mine` with the same base
      character. */
  ghost predicate FuzzyMatch(mine: map<string, KeyMapping>, other: map<string, KeyMapping>, isWindows: bool) {
    forall key :: key in other && !FuzzySkips(key, isWindows) ==>
      key in mine && mine[key].value == other[key].value
  }

  /** `getScore`: zero minus one point per mismatching key of `other`. */
  method GetScore(self: KeymapInfo, other: map<string, KeyMapping>, isWindows: bool, isLinux: bool)
    returns (score: int)
    ensures score == -|Mismatches(self.mapping, other, isWindows, isLinux)|
    ensures -|other| <= score <= 0
  {
    ghost var bad := Mismatches(self.mapping, other, isWindows, isLinux);
    score := 0;
    var todo := other.Keys;
    ghost var done: set<string> := {};
    while todo != {}
      invariant todo + done == other.Keys && todo !! done
      invariant score == -|bad * done|
      decreases |todo|
    {
      var key :| key in todo;
      var mismatch := !ScoreSkips(key, isWindows, isLinux)
                      && (key !in self.mapping || self.mapping[key].value != other[key].value);
      assert mismatch <==> key in bad;
      CountStep(bad, done, key);
      todo := todo - {key};
      done := done + {key};
      if mismatch {
        score := score - 1;
      }
    }
    assert bad * done == bad;
    SubsetCardinality(bad, other.Keys);
    assert |other.Keys| == |other|;
  }

  /** Adding one new key to the keys seen adds one to the count of mismatches seen exactly when
      that key mismatches. */
  lemma CountStep(bad: set<string>, done: set<string>, key: string)
    requires key !in done
    ensures |bad * (done + {key})| == |bad * done| + if key in bad then 1 else 0
  {
    if key in bad {
      assert bad * (done + {key}) == (bad * done) + {key};
    } else {
      assert bad * (done + {key}) == bad * done;
    }
  }

  /** A subset is no larger than its superset. */
  lemma {:induction false} SubsetCardinality<T>(a: set<T>, b: set<T>)
    requires a <= b
    ensures |a| <= |b|
    decreases |a|
  {
    if a != {} {
      var x :| x in a;
      SubsetCardinality(a - {x}, b - {x});
    }
  }

  /** `fuzzyEqual`: stops at the first key that is missing or differs. */
  method FuzzyEqual(self: KeymapInfo, other: map<string, KeyMapping>, isWindows: bool) returns (r: bool)
    ensures r <==> FuzzyMatch(self.mapping, other, isWindows)
  {
    var todo := other.Keys;
    while todo != {}
      invariant todo <= other.Keys
      invariant forall key :: key in other && key !in todo && !FuzzySkips(key, isWindows) ==>
        key in self.mapping && self.mapping[key].value == other[key].value
      decreases |todo|
    {
      var key :| key in todo;
      todo := todo - {key};
      if !FuzzySkips(key, isWindows) {
        if key !in self.mapping || self.mapping[key].value != other[key].value {
          return false;
        }
      }
    }
    return true;
  }

  /** Two keymaps are `equal` when their user-layout flags and layout ids agree and the first's
      mapping fuzzily matches the second's. */
  ghost predicate Equivalent(a: KeymapInfo, b: KeymapInfo, isWindows: bool) {
    && a.isUserKeyboardLayout == b.isUserKeyboardLayout
    && LayoutId(a.layout) == LayoutId(b.layout)
    && FuzzyMatch(a.mapping, b.mapping, isWindows)
  }

  /** `equal`. */
  method Equal(self: KeymapInfo, other: KeymapInfo, isWindows: bool) returns (r: bool)
    ensures r <==> Equivalent(self, other, isWindows)
    ensures self.isUserKeyboardLayout != other.isUserKeyboardLayout ==> !r
    ensures LayoutId(self.layout) != LayoutId(other.layout) ==> !r
  {
    if self.isUserKeyboardLayout != other.isUserKeyboardLayout {
      return false;
    }
    if LayoutId(self.layout) != LayoutId(other.layout) {
      return false;
    }
    r := FuzzyEqual(self, other.mapping, isWindows);
  }

  /** Every keymap is `equal` to itself. */
  lemma EqualReflexive(k: KeymapInfo, isWindows: bool)
    ensures Equivalent(k, k, isWindows)
  {
  }

  /** After `a.update(b)`, `a.equal(b)` holds. */
  lemma UpdateMakesEqual(a: KeymapInfo, b: KeymapInfo, isWindows: bool)
    ensures Equivalent(Update(a, b), b, isWindows)
  {
  }

  /** A fuzzy match costs no points, on every platform. */
  lemma FuzzyMatchScoresZero(
    mine: map<string, KeyMapping>, other: map<string, KeyMapping>, isWindows: bool, isLinux: bool)
    requires FuzzyMatch(mine, other, isWindows)
    ensures Mismatches(mine, other, isWindows, isLinux) == {}
  {
  }

  /** Off Linux the two comparisons agree: a fuzzy match is exactly a perfect score. */
  lemma FuzzyMatchIffPerfectScore(mine: map<string, KeyMapping>, other: map<string, KeyMapping>, isWindows: bool)
    ensures FuzzyMatch(mine, other, isWindows) <==> |Mismatches(mine, other, isWindows, false)| == 0
  {
    if !FuzzyMatch(mine, other, isWindows) {
      var key :| key in other && !FuzzySkips(key, isWindows)
                 && !(key in mine && mine[key].value == other[key].value);
      assert key in Mismatches(mine, other, isWindows, false);
    }
  }

  /** On Linux they part ways: a layout without Escape scores perfectly against one that has it,
      yet does not fuzzily match it. */
  lemma LinuxScoreIsLaxerThanFuzzyEqual()
    ensures Mismatches(map[], map["Escape" := EmptyKey], false, true) == {}
    ensures !FuzzyMatch(map[], map["Escape" := EmptyKey], false)
  {
    var other := map["Escape" := EmptyKey];
    assert "Escape" in other && !FuzzySkips("Escape", false);
  }
}

=== FILE: localize.dfy ===
/** The localization registry: per-language string tables keyed by lower-cased language id,
    lookups with a fallback chain, first-wins language info, and `%key%` placeholder
    substitution (packages/core-common/src/localize.ts). */
module Localize {
  import opened Options

  // ---------------------------------------------------------------------------------------------
  // Lower-casing of language ids

  /** `toLowerCase` on one character, for the ASCII letters. */
  function LowerChar(c: char): char {
    if 'A' <= c <= 'Z' then (c as int + 32) as char else c
  }

  function Lower(s: string): (r: string)
    ensures |r| == |s|
    ensures forall i :: 0 <= i < |s| ==> r[i] == LowerChar(s[i])
  {
    seq(|s|, i requires 0 <= i < |s| => LowerChar(s[i]))
  }

  /** Lower-casing twice is lower-casing once. */
  lemma LowerIdempotent(s: string)
    ensures Lower(Lower(s)) == Lower(s)
  {
  }

  // ---------------------------------------------------------------------------------------------
  // The registry

  type Table = map<string, string>

  datatype LanguageInfo = LanguageInfo(languageId: string, languageName: string, localizedLanguageName: string)

  /** A bundle: its language info and its key -> message contents. */
  datatype Bundle = Bundle(info: LanguageInfo, contents: Table)

  /** One registry: the current language, the message tables keyed by lower-cased language id,
      and the language infos in registration order (a JavaScript `Map` iterates in insertion
      order, and ids are its keys). */
  datatype Registry = Registry(currentLanguageId: string, tables: map<string, Table>, infos: seq<LanguageInfo>)

  /** Language info ids are distinct, as the keys of a map are. */
  predicate Valid(r: Registry) {
    forall i, j :: 0 <= i < j < |r.infos| ==> r.infos[i].languageId != r.infos[j].languageId
  }

  /** A fresh registry for the given initial language. */
  function NewRegistry(initialLanguageId: string): (r: Registry)
    ensures Valid(r) && r.currentLanguageId == initialLanguageId
    ensures forall languageId :: Contents(r, languageId) == map[]
    ensures r.infos == [] && r.tables == map[]
  {
    Registry(initialLanguageId, map[], [])
  }

  /** `getContents`: the table of a language, whatever the case of its id; a missing table reads
      as the empty table the source creates on demand. */
  function Contents(r: Registry, languageId: string): (t: Table)
    ensures Lower(languageId) in r.tables ==> t == r.tables[Lower(languageId)]
    ensures Lower(languageId) !in r.tables ==> t == map[]
  {
    var key := Lower(languageId);
    if key in r.tables then r.tables[key] else map[]
  }

  /** Language ids differing only in ASCII case share one table, and an id already in lower
      case names the same table as the id itself. */
  lemma ContentsIgnoreCase(r: Registry, a: string, b: string)
    requires Lower(a) == Lower(b)
    ensures Contents(r, a) == Contents(r, b)
    ensures Contents(r, Lower(a)) == Contents(r, a)
  {
    LowerIdempotent(a);
  }

  function Entry(t: Table, key: string): Option<string> {
    if key in t then Some(t[key]) else None
  }

  /** `localizationInfo.has(languageId)`. */
  predicate HasInfo(r: Registry, languageId: string) {
    exists i :: 0 <= i < |r.infos| && r.infos[i].languageId == languageId
  }

  /** `localizationInfo.get(languageId)`. */
  function InfoOf(infos: seq<LanguageInfo>, languageId: string): (o: Option<LanguageInfo>)
    ensures o.Some? ==> o.value in infos && o.value.languageId == languageId
    ensures o.None? ==> forall i :: 0 <= i < |infos| ==> infos[i].languageId != languageId
    ensures o.Some? ==>
      exists i :: 0 <= i < |infos| && infos[i] == o.value && forall j :: 0 <= j < i ==> infos[j].languageId != languageId
  {
    if infos == [] then None
    else if infos[0].languageId == languageId then Some(infos[0])
    else InfoOf(infos[1..], languageId)
  }

  /** `registerLocalizationBundle`: merges the bundle's messages, each passed through the
      mnemonic-stripping function `strip`, into its language's table, and records the language
      info unless the id already has one. */
  function RegisterBundle(r: Registry, b: Bundle, strip: string -> string): (r': Registry)
    ensures r'.currentLanguageId == r.currentLanguageId
    ensures forall key :: key in b.contents ==>
      Entry(Contents(r', b.info.languageId), key) == Some(strip(b.contents[key]))
    ensures forall key :: key !in b.contents ==>
      Entry(Contents(r', b.info.languageId), key) == Entry(Contents(r, b.info.languageId), key)
    ensures forall languageId :: Lower(languageId) != Lower(b.info.languageId) ==>
      Contents(r', languageId) == Contents(r, languageId)
    ensures HasInfo(r, b.info.languageId) ==> r'.infos == r.infos
    ensures !HasInfo(r, b.info.languageId) ==> r'.infos == r.infos + [b.info]
    ensures Valid(r) ==> Valid(r')
  {
    var id := Lower(b.info.languageId);
    var merged := Contents(r, b.info.languageId) + map key | key in b.contents :: strip(b.contents[key]);
    var infos := if HasInfo(r, b.info.languageId) then r.infos else r.infos + [b.info];
    Registry(r.currentLanguageId, r.tables[id := merged], infos)
  }

  /** Only the first bundle registered for a language id sets its info. */
  lemma FirstRegistrationWins(r: Registry, b1: Bundle, b2: Bundle, strip: string -> string)
    requires Valid(r) && !HasInfo(r, b1.info.languageId)
    requires b2.info.languageId == b1.info.languageId
    ensures InfoOf(RegisterBundle(RegisterBundle(r, b1, strip), b2, strip).infos, b1.info.languageId)
            == Some(b1.info)
  {
    var r1 := RegisterBundle(r, b1, strip);
    assert r1.infos[|r.infos|] == b1.info;
    assert HasInfo(r1, b2.info.languageId);
    FirstInfoIsFound(r1.infos, |r.infos|);
  }

  /** In a list of distinct ids, looking up the id at position `i` finds that entry. */
  lemma {:induction false} FirstInfoIsFound(infos: seq<LanguageInfo>, i: nat)
    requires i < |infos|
    requires forall a, b :: 0 <= a < b < |infos| ==> infos[a].languageId != infos[b].languageId
    ensures InfoOf(infos, infos[i].languageId) == Some(infos[i])
    decreases i
  {
    if i > 0 {
      assert infos[0].languageId != infos[i].languageId;
      assert infos[1..][i - 1] == infos[i];
      FirstInfoIsFound(infos[1..], i - 1);
    }
  }

  /** The `currentLanguageId` setter: an empty id is ignored. */
  function SetCurrentLanguage(r: Registry, languageId: string): (r': Registry)
    ensures languageId == "" ==> r' == r
    ensures languageId != "" ==> r'.currentLanguageId == languageId
    ensures r'.tables == r.tables && r'.infos == r.infos
  {
    if languageId != "" then r.(currentLanguageId := languageId) else r
  }

  /** `getAllLanguages`: every registered language info, in registration order. */
  function AllLanguages(r: Registry): (infos: seq<LanguageInfo>)
    ensures forall i :: 0 <= i < |infos| ==> HasInfo(r, infos[i].languageId)
    ensures forall languageId :: HasInfo(r, languageId) ==> InfoOf(infos, languageId).Some?
    ensures |infos| == |r.infos|
  {
    r.infos
  }

  /** Each listed info is the one `localizationInfo.get` returns for its id. */
  lemma ListedInfosAreStored(r: Registry)
    requires Valid(r)
    ensures forall i :: 0 <= i < |AllLanguages(r)| ==>
      InfoOf(r.infos, AllLanguages(r)[i].languageId) == Some(AllLanguages(r)[i])
  {
    forall i | 0 <= i < |r.infos|
      ensures InfoOf(r.infos, r.infos[i].languageId) == Some(r.infos[i])
    {
      FirstInfoIsFound(r.infos, i);
    }
  }

  /** Languages are listed in first-registration order: a bundle for a new id appends its info,
      a bundle for a known id leaves the list as it was. */
  lemma LanguagesInRegistrationOrder(r: Registry, b: Bundle, strip: string -> string)
    ensures !HasInfo(r, b.info.languageId) ==>
      AllLanguages(RegisterBundle(r, b, strip)) == AllLanguages(r) + [b.info]
    ensures HasInfo(r, b.info.languageId) ==>
      AllLanguages(RegisterBundle(r, b, strip)) == AllLanguages(r)
  {
  }

  /** The `defaultLabel` argument of a lookup: left out, `null`, or a string. */
  datatype DefaultLabel = NoDefault | NullDefault | Label(text: string)

  /** The fallback message: the label itself, or for `null` the `en-US` entry of the key. */
  function Fallback(r: Registry, key: string, d: DefaultLabel): Option<string> {
    match d
    case NoDefault => None
    case NullDefault => Entry(Contents(r, "en-US"), key)
    case Label(text) => Some(text)
  }

  /** `getLocalizeString`: the current language's message if it is non-empty, else the fallback
      if that is non-empty, else the empty string. */
  function GetLocalizeString(r: Registry, key: string, d: DefaultLabel): (s: string)
    ensures Truthy(Entry(Contents(r, r.currentLanguageId), key)) ==>
      Some(s) == Entry(Contents(r, r.currentLanguageId), key)
    ensures s != "" ==>
      Some(s) == Entry(Contents(r, r.currentLanguageId), key) || Some(s) == Fallback(r, key, d)
    ensures s == "" <==>
      !Truthy(Entry(Contents(r, r.currentLanguageId), key)) && !Truthy(Fallback(r, key, d))
  {
    var current := Entry(Contents(r, r.currentLanguageId), key);
    var fallback := Fallback(r, key, d);
    if Truthy(current) then current.value
    else if Truthy(fallback) then fallback.value
    else ""
  }

  /** A message just registered for the current language (in any letter case) is what a lookup
      of its key returns, whatever the default, unless stripping left it empty. */
  lemma RegisteredMessageIsFound(r: Registry, b: Bundle, strip: string -> string, key: string, d: DefaultLabel)
    requires key in b.contents && strip(b.contents[key]) != ""
    requires Lower(b.info.languageId) == Lower(r.currentLanguageId)
    ensures GetLocalizeString(RegisterBundle(r, b, strip), key, d) == strip(b.contents[key])
  {
    var r' := RegisterBundle(r, b, strip);
    ContentsIgnoreCase(r', b.info.languageId, r'.currentLanguageId);
  }

  /** With a `null` default and no current-language message, the `en-US` message is used. */
  lemma NullDefaultFallsBackToEnglish(r: Registry, key: string)
    requires !Truthy(Entry(Contents(r, r.currentLanguageId), key))
    requires Truthy(Entry(Contents(r, "en-us"), key))
    ensures GetLocalizeString(r, key, NullDefault) == Contents(r, "en-us")[key]
  {
    ContentsIgnoreCase(r, "en-US", "en-us");
  }

  // ---------------------------------------------------------------------------------------------
  // Scoped registries and `localize`

  /** The registries by scope name. */
  type Scopes = map<string, Registry>

  /** The language a new registry starts in: the stored `general.language` preference if it is
      non-empty, else `zh-CN`. */
  function InitialLanguage(stored: Option<string>): (l: string)
    ensures l != ""
    ensures Truthy(stored) ==> l == stored.value
  {
    if Truthy(stored) then stored.value else "zh-CN"
  }

  /** `getLocalizationRegistry`: the scope's registry, created on first use. */
  function EnsureScope(scopes: Scopes, scope: string, stored: Option<string>): (s': Scopes)
    ensures scope in s'
    ensures scope in scopes ==> s' == scopes
    ensures scope !in scopes ==> s' == scopes[scope := NewRegistry(InitialLanguage(stored))]
  {
    if scope in scopes then scopes else scopes[scope := NewRegistry(InitialLanguage(stored))]
  }

  /** `localize(key, default, scope)`: the lookup in the scope's registry, which it may create. */
  function Localize(scopes: Scopes, key: string, d: DefaultLabel, scope: string, stored: Option<string>)
    : (res: (string, Scopes))
    ensures res.1 == EnsureScope(scopes, scope, stored)
    ensures scope !in scopes ==> res.0 == (if d.Label? && d.text != "" then d.text else "")
    ensures scope in scopes ==> res.0 == GetLocalizeString(scopes[scope], key, d)
  {
    var s' := EnsureScope(scopes, scope, stored);
    (GetLocalizeString(s'[scope], key, d), s')
  }

  // ---------------------------------------------------------------------------------------------
  // `%key%` placeholders

  /** Characters the regular expression `.` does not match. */
  predicate IsLineTerminator(c: char) {
    c == '\n' || c == '\r' || c == '\U{2028}' || c == '\U{2029}'
  }

  /** Where the lazy `%(.*?)%` closes when its opening `%` sits just before `from`: the first `%`
      at or after `from`, provided no line terminator comes first. */
  function ClosingPercent(s: string, from: nat): (j: Option<nat>)
    requires from <= |s|
    ensures j.Some? ==> from <= j.value < |s| && s[j.value] == '%'
    ensures j.Some? ==> forall i :: from <= i < j.value ==> s[i] != '%' && !IsLineTerminator(s[i])
    decreases |s| - from
  {
    if from == |s| then None
    else if s[from] == '%' then Some(from)
    else if IsLineTerminator(s[from]) then None
    else ClosingPercent(s, from + 1)
  }

  function CountPercent(s: string): nat {
    if s == [] then 0 else (if s[0] == '%' then 1 else 0) + CountPercent(s[1..])
  }

  /** `label.replace(/%(.*?)%/g, lookup)`: scanning left to right, each `%key%` match is replaced
      by `lookup(key)` and scanning resumes after its closing `%`; a `%` that opens no match is
      kept. */
  function ReplacePlaceholders(s: string, lookup: string -> string): (r: string)
    ensures CountPercent(s) < 2 ==> r == s
    decreases |s|
  {
    if s == [] then []
    else if s[0] == '%' then
      match ClosingPercent(s, 1)
      case Some(j) =>
        PercentsBeforeClose(s, j);
        lookup(s[1..j]) + ReplacePlaceholders(s[j + 1..], lookup)
      case None =>
        [s[0]] + ReplacePlaceholders(s[1..], lookup)
    else
      [s[0]] + ReplacePlaceholders(s[1..], lookup)
  }

  /** A match opened at position 0 and closed at `j` holds two of the string's `%`. */
  lemma PercentsBeforeClose(s: string, j: nat)
    requires 0 < j < |s| && s[0] == '%' && s[j] == '%'
    requires forall i :: 1 <= i < j ==> s[i] != '%'
    ensures CountPercent(s) >= 2
  {
    assert s[1..] == s[1..j] + s[j..];
    NoPercentCountsZero(s[1..j]);
    CountAppend(s[1..j], s[j..]);
  }

  lemma {:induction false} NoPercentCountsZero(s: string)
    requires forall i :: 0 <= i < |s| ==> s[i] != '%'
    ensures CountPercent(s) == 0
  {
    if s != [] {
      NoPercentCountsZero(s[1..]);
    }
  }

  lemma {:induction false} CountAppend(a: string, b: string)
    ensures CountPercent(a + b) == CountPercent(a) + CountPercent(b)
  {
    if a != [] {
      assert (a + b)[0] == a[0];
      assert (a + b)[1..] == a[1..] + b;
      CountAppend(a[1..], b);
    } else {
      assert a + b == b;
    }
  }

  /** A label made of one placeholder around a plain key becomes that key's message. */
  lemma SinglePlaceholder(key: string, lookup: string -> string)
    requires forall i :: 0 <= i < |key| ==> key[i] != '%' && !IsLineTerminator(key[i])
    ensures ReplacePlaceholders("%" + key + "%", lookup) == lookup(key)
  {
    PlaceholderThenRest(key, [], lookup);
    assert "%" + key + "%" + [] == "%" + key + "%";
  }

  /** A placeholder at the start is replaced, and the rest is processed on its own. */
  lemma PlaceholderThenRest(key: string, rest: string, lookup: string -> string)
    requires forall i :: 0 <= i < |key| ==> key[i] != '%' && !IsLineTerminator(key[i])
    ensures ReplacePlaceholders("%" + key + "%" + rest, lookup) == lookup(key) + ReplacePlaceholders(rest, lookup)
  {
    var s := "%" + key + "%" + rest;
    var j := |key| + 1;
    ClosingAt(s, 1, j);
    assert s[1..j] == key;
    assert s[j + 1..] == rest;
  }

  /** A `%` that no closing `%` answers is kept, and scanning resumes right after it. */
  lemma UnmatchedPercent(s: string, lookup: string -> string)
    requires |s| > 0 && s[0] == '%' && ClosingPercent(s, 1).None?
    ensures ReplacePlaceholders(s, lookup) == "%" + ReplacePlaceholders(s[1..], lookup)
  {
  }

  /** The match closes at the first `%` when no line terminator comes before it. */
  lemma {:induction false} ClosingAt(s: string, from: nat, j: nat)
    requires 1 <= from <= j < |s| && s[j] == '%'
    requires forall i :: from <= i < j ==> s[i] != '%' && !IsLineTerminator(s[i])
    ensures ClosingPercent(s, from) == Some(j)
    decreases j - from
  {
    if from < j {
      ClosingAt(s, from + 1, j);
    }
  }

  /** Text without `%` passes through untouched and does not disturb what follows. */
  lemma {:induction false} PlainPrefix(a: string, b: string, lookup: string -> string)
    requires forall i :: 0 <= i < |a| ==> a[i] != '%'
    ensures ReplacePlaceholders(a + b, lookup) == a + ReplacePlaceholders(b, lookup)
  {
    if a != [] {
      var s := a + b;
      assert s[0] == a[0] && s[0] != '%';
      assert s[1..] == a[1..] + b;
      assert ReplacePlaceholders(s, lookup) == [s[0]] + ReplacePlaceholders(s[1..], lookup);
      PlainPrefix(a[1..], b, lookup);
      assert a == [a[0]] + a[1..];
    } else {
      assert a + b == b;
    }
  }

  /** A line break between two `%` prevents the match: the label is unchanged. */
  lemma LineBreakBlocksMatch(lookup: string -> string)
    ensures ReplacePlaceholders("%a\nb%", lookup) == "%a\nb%"
  {
    var s := "%a\nb%";
    assert ClosingPercent(s, 1) == None;
    assert s[1..] == "a\nb%";
    PlainPrefix("a\nb", "%", lookup);
  }

  /** The replacement callback: `localize(key, undefined, scope)`. */
  function ScopeLookup(scopes: Scopes, scope: string, stored: Option<string>): string -> string {
    key => Localize(scopes, key, NoDefault, scope, stored).0
  }

  /** `replaceLocalizePlaceholder(label, env)`: `undefined` for a missing or empty label,
      otherwise the label with each placeholder replaced by `localize(key, undefined, env)`,
      `env` defaulting to the `host` scope. */
  function ReplaceLocalizePlaceholder(text: Option<string>, env: Option<string>, scopes: Scopes, stored: Option<string>)
    : (r: Option<string>)
    ensures !Truthy(text) <==> r.None?
    ensures Truthy(text) && CountPercent(text.value) < 2 ==> r == text
    ensures Truthy(text) ==> r.Some?
  {
    if Truthy(text) then
      var scope := env.GetOr("host");
      Some(ReplacePlaceholders(text.value, ScopeLookup(scopes, scope, stored)))
    else
      None
  }

  /** A label that is one placeholder becomes the key's message in the `env` scope (`host` when
      no scope is given); in a scope not created yet that message is empty. */
  lemma PlaceholderLabelIsLocalized(key: string, env: Option<string>, scopes: Scopes, stored: Option<string>)
    requires forall i :: 0 <= i < |key| ==> key[i] != '%' && !IsLineTerminator(key[i])
    ensures ReplaceLocalizePlaceholder(Some("%" + key + "%"), env, scopes, stored)
            == Some(Localize(scopes, key, NoDefault, env.GetOr("host"), stored).0)
    ensures env.GetOr("host") !in scopes ==>
      ReplaceLocalizePlaceholder(Some("%" + key + "%"), env, scopes, stored) == Some("")
  {
    var scope := env.GetOr("host");
    var text := "%" + key + "%";
    assert |text| == |key| + 2;
    assert Truthy(Some(text));
    SinglePlaceholder(key, ScopeLookup(scopes, scope, stored));
  }
}

=== FILE: options.dfy ===
/** Optional values, standing for JavaScript's `undefined` where the modelled code reads a
    property that may be missing. */
module Options {

  datatype Option<+T> = None | Some(value: T) {

    /** The value, or `default` when there is none (JavaScript's `x ?? default`). */
    function GetOr(default: T): T {
      match this
      case Some(v) => v
      case None => default
    }
  }

  /** JavaScript truthiness of an optional string: present and non-empty. */
  predicate Truthy(s: Option<string>) {
    s.Some? && s.value != ""
  }
}

=== FILE: tabbar.dfy ===
/** The tab bar service of one side panel (packages/main-layout/src/browser/tabbar/tabbar.service.ts):
    the registered containers, the current container, and the click handler that collapses the
    panel to its tab strip or expands it to the size it had before. */
module Tabbar {
  import opened Options

  /** The width of the collapsed panel: just the tab strip. */
  const CollapsedSize: int := 50

  /** The size used when no earlier size is known, or the earlier size is 0. */
  const DefaultSize: int := 400

  /** `currentContainerId` is `None` until the first click; `""` means collapsed. `prevSize` is
      the panel size remembered for the next expansion. Container infos are kept abstract. */
  datatype Tabbar<C> = Tabbar(
    location: string,
    currentContainerId: Option<string>,
    containers: map<string, C>,
    prevSize: Option<int>)

  function NewTabbar<C>(location: string): (t: Tabbar<C>)
    ensures t.location == location && t.containers == map[]
    ensures t.currentContainerId.None? && t.prevSize.None?
  {
    Tabbar(location, None, map[], None)
  }

  /** `registerContainer`: stores the info under its id, replacing any earlier one. */
  function RegisterContainer<C>(t: Tabbar<C>, id: string, info: C): (t': Tabbar<C>)
    ensures t'.containers.Keys == t.containers.Keys + {id}
    ensures t'.containers[id] == info && t'.location == t.location
    ensures forall k :: k in t.containers && k != id ==> t'.containers[k] == t.containers[k]
    ensures t'.currentContainerId == t.currentContainerId && t'.prevSize == t.prevSize
  {
    t.(containers := t.containers[id := info])
  }

  /** `getContainer`: the stored info, or nothing (`undefined`). */
  function GetContainer<C>(t: Tabbar<C>, id: string): (o: Option<C>)
    ensures o.Some? <==> id in t.containers
    ensures o.Some? ==> o.value == t.containers[id]
  {
    if id in t.containers then Some(t.containers[id]) else None
  }

  /** A registered container is found under its id until it is registered again. */
  lemma RegisteredContainerIsFound<C>(t: Tabbar<C>, id: string, info: C, other: string)
    ensures GetContainer(RegisterContainer(t, id, info), id) == Some(info)
    ensures other != id ==> GetContainer(RegisterContainer(t, id, info), other) == GetContainer(t, other)
  {
  }

  /** `prevSize || 400`: a missing or zero size falls back to the default. */
  function ExpandedSize(prev: Option<int>): (size: int)
    ensures prev.Some? && prev.value != 0 ==> size == prev.value
    ensures !(prev.Some? && prev.value != 0) ==> size == DefaultSize
  {
    if prev.Some? && prev.value != 0 then prev.value else DefaultSize
  }

  /** `handleTabClick`: `clicked` is the id of the clicked tab and `currentSize` what `getSize`
      reports for the panel. Returns the new state and the size passed to `setSize`. Clicking
      the current tab (unless collapsing is forbidden) collapses the panel and remembers its
      size; any other click makes the tab current and restores the remembered size, remembering
      the current one first if none is remembered yet. */
  function HandleTabClick<C>(t: Tabbar<C>, clicked: string, currentSize: int, forbidCollapse: bool)
    : (res: (Tabbar<C>, int))
    ensures res.0.containers == t.containers && res.0.location == t.location
    ensures t.currentContainerId == Some(clicked) && !forbidCollapse ==>
      && res.0.currentContainerId == Some("")
      && res.0.prevSize == Some(currentSize)
      && res.1 == CollapsedSize
    ensures !(t.currentContainerId == Some(clicked) && !forbidCollapse) ==>
      && res.0.currentContainerId == Some(clicked)
      && (t.prevSize.Some? ==> res.0.prevSize == t.prevSize)
      && (t.prevSize.None? ==> res.0.prevSize == Some(currentSize))
      && res.1 == ExpandedSize(res.0.prevSize)
  {
    if t.currentContainerId == Some(clicked) && !forbidCollapse then
      (t.(prevSize := Some(currentSize), currentContainerId := Some("")), CollapsedSize)
    else
      var prev := if t.prevSize.None? then Some(currentSize) else t.prevSize;
      (t.(prevSize := prev, currentContainerId := Some(clicked)), ExpandedSize(prev))
  }

  /** Whether the panel shows a container (as opposed to never clicked, or collapsed). */
  predicate Expanded<C>(t: Tabbar<C>) {
    t.currentContainerId.Some? && t.currentContainerId.value != ""
  }

  /** Collapsing and then clicking the same tab again brings the panel back to the size it had,
      whatever the collapsed panel's size was reported as. */
  lemma CollapseThenExpandRestores<C>(t: Tabbar<C>, id: string, size: int, collapsedSize: int)
    requires t.currentContainerId == Some(id) && id != "" && size != 0
    ensures var (t1, s1) := HandleTabClick(t, id, size, false);
      var (t2, s2) := HandleTabClick(t1, id, collapsedSize, false);
      && s1 == CollapsedSize && !Expanded(t1)
      && s2 == size && t2.currentContainerId == Some(id) && Expanded(t2)
  {
  }

  /** The click toggles: on an expanded panel a click on the current tab collapses it, and a
      click on a collapsed panel never collapses it. */
  lemma ClickToggles<C>(t: Tabbar<C>, clicked: string, size: int)
    requires clicked != ""
    ensures Expanded(t) && t.currentContainerId == Some(clicked) ==>
      !Expanded(HandleTabClick(t, clicked, size, false).0)
    ensures !Expanded(t) ==> Expanded(HandleTabClick(t, clicked, size, false).0)
  {
  }

  /** With collapsing forbidden, a click always selects the tab, and the size set is the
      remembered one. */
  lemma ForbidCollapseNeverCollapses<C>(t: Tabbar<C>, clicked: string, size: int)
    requires clicked != ""
    ensures var (t', s) := HandleTabClick(t, clicked, size, true);
      && Expanded(t') && t'.currentContainerId == Some(clicked)
      && s == ExpandedSize(t'.prevSize)
  {
  }

  /** The very first click keeps the panel at its current (non-zero) size and remembers it. */
  lemma FirstClickKeepsSize<C>(location: string, clicked: string, size: int, forbidCollapse: bool)
    requires size != 0
    ensures var (t', s) := HandleTabClick(NewTabbar<C>(location), clicked, size, forbidCollapse);
      s == size && t'.prevSize == Some(size)
  {
  }

  /** Switching between tabs of an expanded panel never changes the remembered size: the size
      the panel is given is the one remembered, not the one it currently has. */
  lemma SwitchingKeepsRememberedSize<C>(t: Tabbar<C>, clicked: string, size: int)
    requires t.prevSize.Some? && t.currentContainerId != Some(clicked)
    ensures var (t', s) := HandleTabClick(t, clicked, size, false);
      t'.prevSize == t.prevSize && s == ExpandedSize(t.prevSize)
  {
  }
}

=== FILE: toolbar.dfy ===
/** The toolbar view service (packages/toolbar/src/browser/toolbar.view.service.ts): one handle
    list per toolbar position, kept sorted by `order`, with visibility flags and disposal. */
module Toolbar {
  import opened Options

  datatype Position = Left | Right | Center

  /** A toolbar action or component: its id, position and optional `order`. */
  datatype Element = Element(id: string, position: Position, order: Option<int>)

  /** A registration handle: `hid` is its object identity. */
  datatype Handle = Handle(hid: nat, element: Element, visible: bool)

  /** The three handle lists, and the identity the next handle gets. */
  datatype ToolbarState = ToolbarState(left: seq<Handle>, right: seq<Handle>, center: seq<Handle>, nextHid: nat)

  const Empty: ToolbarState := ToolbarState([], [], [], 0)

  function Elements(t: ToolbarState, p: Position): seq<Handle> {
    match p
    case Left => t.left
    case Right => t.right
    case Center => t.center
  }

  function WithElements(t: ToolbarState, p: Position, hs: seq<Handle>): (t': ToolbarState)
    ensures Elements(t', p) == hs
    ensures forall q :: q != p ==> Elements(t', q) == Elements(t, q)
    ensures t'.nextHid == t.nextHid
  {
    match p
    case Left => t.(left := hs)
    case Right => t.(right := hs)
    case Center => t.(center := hs)
  }

  // ---------------------------------------------------------------------------------------------
  // Sorting by order

  /** `element.order || 0`. */
  function Key(h: Handle): int {
    h.element.order.GetOr(0)
  }

  predicate Sorted(hs: seq<Handle>) {
    forall i, j :: 0 <= i < j < |hs| ==> Key(hs[i]) <= Key(hs[j])
  }

  /** Where `h` goes: after the leading handles whose keys are at most its own. */
  function InsertIndex(hs: seq<Handle>, h: Handle): (i: nat)
    ensures i <= |hs|
    ensures forall j :: 0 <= j < i ==> Key(hs[j]) <= Key(h)
    ensures i < |hs| ==> Key(h) < Key(hs[i])
  {
    if hs == [] || Key(h) < Key(hs[0]) then 0
    else 1 + InsertIndex(hs[1..], h)
  }

  /** Places `h` before the first handle whose key is greater than its own. */
  function Insert(hs: seq<Handle>, h: Handle): (r: seq<Handle>)
    ensures multiset(r) == multiset(hs) + multiset{h}
    ensures |r| == |hs| + 1
  {
    var i := InsertIndex(hs, h);
    assert hs == hs[..i] + hs[i..];
    hs[..i] + [h] + hs[i..]
  }

  /** Inserting into a sorted list keeps it sorted; the handles already there keep their order,
      and `h` lands after every one whose key is at most its own. */
  lemma InsertKeepsSorted(hs: seq<Handle>, h: Handle)
    requires Sorted(hs)
    ensures Sorted(Insert(hs, h))
    ensures forall j :: InsertIndex(hs, h) <= j < |hs| ==> Key(h) < Key(hs[j])
  {
    var r := Insert(hs, h);
    forall a, b | 0 <= a < b < |r|
      ensures Key(r[a]) <= Key(r[b])
    {
      InsertAt(hs, h, a);
      InsertAt(hs, h, b);
    }
  }

  /** The stable sort `Array.prototype.sort` performs with the order comparator. */
  function SortByOrder(hs: seq<Handle>): (r: seq<Handle>)
    ensures Sorted(r)
    ensures multiset(r) == multiset(hs)
  {
    if hs == [] then []
    else
      assert hs == hs[..|hs| - 1] + [hs[|hs| - 1]];
      InsertKeepsSorted(SortByOrder(hs[..|hs| - 1]), hs[|hs| - 1]);
      Insert(SortByOrder(hs[..|hs| - 1]), hs[|hs| - 1])
  }

  /** Sorting a sorted list leaves it as it is. */
  lemma {:induction false} SortSortedIsIdentity(hs: seq<Handle>)
    requires Sorted(hs)
    ensures SortByOrder(hs) == hs
  {
    if hs != [] {
      var init := hs[..|hs| - 1];
      SortSortedIsIdentity(init);
      InsertLast(init, hs[|hs| - 1]);
      assert hs == init + [hs[|hs| - 1]];
    }
  }

  /** A handle whose key is at least every key of the list goes to the end. */
  lemma InsertLast(hs: seq<Handle>, h: Handle)
    requires forall j :: 0 <= j < |hs| ==> Key(hs[j]) <= Key(h)
    ensures Insert(hs, h) == hs + [h]
  {
    assert InsertIndex(hs, h) == |hs|;
  }

  // ---------------------------------------------------------------------------------------------
  // The service

  /** No handle identity occurs twice in a list. */
  predicate DistinctHids(hs: seq<Handle>) {
    forall i, j :: 0 <= i < j < |hs| ==> hs[i].hid != hs[j].hid
  }

  /** Each list is sorted, its handle identities are distinct and below `nextHid`. */
  predicate Valid(t: ToolbarState) {
    forall p :: && Sorted(Elements(t, p))
                && DistinctHids(Elements(t, p))
                && forall i :: 0 <= i < |Elements(t, p)| ==> Elements(t, p)[i].hid < t.nextHid
  }

  /** `registerToolBarElement`: a new visible handle is appended to the element's position and
      that position's list is sorted again; the other positions are untouched. */
  function RegisterToolBarElement(t: ToolbarState, e: Element): (res: (ToolbarState, Handle))
    ensures res.1.visible && res.1.element == e && res.1.hid == t.nextHid
    ensures res.0.nextHid == t.nextHid + 1
    ensures Sorted(Elements(res.0, e.position))
    ensures multiset(Elements(res.0, e.position)) == multiset(Elements(t, e.position)) + multiset{res.1}
    ensures forall q :: q != e.position ==> Elements(res.0, q) == Elements(t, q)
  {
    var h := Handle(t.nextHid, e, true);
    var t' := WithElements(t, e.position, SortByOrder(Elements(t, e.position) + [h]));
    (t'.(nextHid := t.nextHid + 1), h)
  }

  /** On a sorted list, the push-then-sort of registration is a stable insertion: the new handle
      goes after every handle whose order is at most its own. */
  lemma RegisterIsStableInsert(t: ToolbarState, e: Element)
    requires Sorted(Elements(t, e.position))
    ensures var (t', h) := RegisterToolBarElement(t, e);
      Elements(t', e.position) == Insert(Elements(t, e.position), h)
  {
    var hs := Elements(t, e.position);
    var h := Handle(t.nextHid, e, true);
    SortSortedIsIdentity(hs);
    assert (hs + [h])[..|hs + [h]| - 1] == hs;
  }

  /** `indexOf` on handles: the position of the first handle with the given identity, or `|hs|`
      (for `-1`) if there is none. */
  function IndexOfHid(hs: seq<Handle>, hid: nat): (i: nat)
    ensures i <= |hs|
    ensures forall j :: 0 <= j < i ==> hs[j].hid != hid
    ensures i < |hs| ==> hs[i].hid == hid
  {
    if hs == [] || hs[0].hid == hid then 0
    else 1 + IndexOfHid(hs[1..], hid)
  }

  /** `removeObjectFromArray`: splices out the first handle with the given identity, if any; the
      handles before and after it keep their order. */
  function RemoveHandle(hs: seq<Handle>, hid: nat): (r: seq<Handle>)
    ensures IndexOfHid(hs, hid) == |hs| ==> r == hs
    ensures IndexOfHid(hs, hid) < |hs| ==>
      r == hs[..IndexOfHid(hs, hid)] + hs[IndexOfHid(hs, hid) + 1..]
    ensures forall x :: x in hs && x.hid != hid ==> x in r
    ensures forall x :: x in r ==> x in hs
  {
    var i := IndexOfHid(hs, hid);
    if i < |hs| then
      assert hs == hs[..i] + [hs[i]] + hs[i + 1..];
      hs[..i] + hs[i + 1..]
    else hs
  }

  /** Removal, head first: a matching head goes, any other head stays in front of what removal
      leaves of the tail. */
  lemma RemoveHandleCons(hs: seq<Handle>, hid: nat)
    requires hs != []
    ensures hs[0].hid == hid ==> RemoveHandle(hs, hid) == hs[1..]
    ensures hs[0].hid != hid ==> RemoveHandle(hs, hid) == [hs[0]] + RemoveHandle(hs[1..], hid)
  {
    if hs[0].hid != hid {
      var i := IndexOfHid(hs[1..], hid);
      assert IndexOfHid(hs, hid) == i + 1;
      if i < |hs| - 1 {
        assert hs[..i + 1] == [hs[0]] + hs[1..][..i];
        assert hs[i + 2..] == hs[1..][i + 1..];
      }
    }
  }

  /** Removal keeps a list sorted. */
  lemma RemoveKeepsSorted(hs: seq<Handle>, hid: nat)
    requires Sorted(hs)
    ensures Sorted(RemoveHandle(hs, hid))
  {
    var i := IndexOfHid(hs, hid);
    if i < |hs| {
      SpliceKeepsSorted(hs, i);
    }
  }

  /** Splicing one handle out of a sorted list leaves it sorted. */
  lemma SpliceKeepsSorted(hs: seq<Handle>, i: nat)
    requires Sorted(hs) && i < |hs|
    ensures Sorted(hs[..i] + hs[i + 1..])
  {
    var r := hs[..i] + hs[i + 1..];
    forall a, b | 0 <= a < b < |r|
      ensures Key(r[a]) <= Key(r[b])
    {
      var a' := if a < i then a else a + 1;
      var b' := if b < i then b else b + 1;
      assert r[a] == hs[a'] && r[b] == hs[b'];
    }
  }

  /** Removal keeps identities distinct, and then leaves no handle with the removed identity. */
  lemma {:induction false} RemoveKeepsDistinct(hs: seq<Handle>, hid: nat)
    requires DistinctHids(hs)
    ensures DistinctHids(RemoveHandle(hs, hid))
    ensures forall i :: 0 <= i < |RemoveHandle(hs, hid)| ==> RemoveHandle(hs, hid)[i].hid != hid
  {
    if hs != [] {
      RemoveHandleCons(hs, hid);
      TailDistinct(hs);
      if hs[0].hid != hid {
        RemoveKeepsDistinct(hs[1..], hid);
        var rest := RemoveHandle(hs[1..], hid);
        forall j | 0 <= j < |rest|
          ensures rest[j].hid != hs[0].hid
        {
          TailMember(hs, rest[j]);
        }
        ConsDistinct(hs[0], rest);
      }
    }
  }

  /** A handle of the tail sits at some position after the head. */
  lemma TailMember(hs: seq<Handle>, x: Handle)
    requires hs != [] && x in hs[1..]
    ensures Sorted(hs) ==> Key(hs[0]) <= Key(x)
    ensures DistinctHids(hs) ==> x.hid != hs[0].hid
  {
    var k :| 0 <= k < |hs[1..]| && hs[1..][k] == x;
    assert hs[k + 1] == x;
  }

  /** The tail of a list with distinct identities has distinct identities, none the head's. */
  lemma TailDistinct(hs: seq<Handle>)
    requires hs != [] && DistinctHids(hs)
    ensures DistinctHids(hs[1..])
    ensures forall i :: 0 <= i < |hs[1..]| ==> hs[1..][i].hid != hs[0].hid
  {
    assert forall i :: 0 <= i < |hs| - 1 ==> hs[1..][i] == hs[i + 1];
  }

  /** A handle whose identity differs from every identity of a distinct list can go in front. */
  lemma ConsDistinct(x: Handle, rest: seq<Handle>)
    requires DistinctHids(rest)
    requires forall j :: 0 <= j < |rest| ==> rest[j].hid != x.hid
    ensures DistinctHids([x] + rest)
  {
    var r := [x] + rest;
    forall a, b | 0 <= a < b < |r|
      ensures r[a].hid != r[b].hid
    {
      if a == 0 {
        assert r[b] == rest[b - 1];
      } else {
        assert r[a] == rest[a - 1] && r[b] == rest[b - 1];
      }
    }
  }

  /** The disposer of a handle: removes it from its element's position. */
  function DisposeHandle(t: ToolbarState, h: Handle): (t': ToolbarState)
    ensures forall q :: q != h.element.position ==> Elements(t', q) == Elements(t, q)
    ensures forall x :: x in Elements(t, h.element.position) && x.hid != h.hid ==>
      x in Elements(t', h.element.position)
    ensures forall x :: x in Elements(t', h.element.position) ==> x in Elements(t, h.element.position)
    ensures var hs := Elements(t, h.element.position); var i := IndexOfHid(hs, h.hid);
      && (i == |hs| ==> Elements(t', h.element.position) == hs)
      && (i < |hs| ==> Elements(t', h.element.position) == hs[..i] + hs[i + 1..])
    ensures t'.nextHid == t.nextHid
  {
    var p := h.element.position;
    WithElements(t, p, RemoveHandle(Elements(t, p), h.hid))
  }

  /** Disposing keeps the service's invariant and leaves no handle with that identity in the
      element's position. */
  lemma DisposeKeepsValid(t: ToolbarState, h: Handle)
    requires Valid(t)
    ensures Valid(DisposeHandle(t, h))
    ensures forall x :: x in Elements(DisposeHandle(t, h), h.element.position) ==> x.hid != h.hid
  {
    var p := h.element.position;
    var t' := DisposeHandle(t, h);
    RemoveKeepsSorted(Elements(t, p), h.hid);
    RemoveKeepsDistinct(Elements(t, p), h.hid);
    forall q
      ensures Sorted(Elements(t', q)) && DistinctHids(Elements(t', q))
      ensures forall i :: 0 <= i < |Elements(t', q)| ==> Elements(t', q)[i].hid < t'.nextHid
    {
      if q != p {
        assert Elements(t', q) == Elements(t, q);
      } else {
        assert forall i :: 0 <= i < |Elements(t', q)| ==> Elements(t', q)[i] in Elements(t, q);
      }
    }
  }

  /** The flag update `setVisible` makes on the handle with identity `hid`, in one list. */
  function SetVisibleIn(hs: seq<Handle>, hid: nat, visible: bool): (r: seq<Handle>)
    ensures |r| == |hs|
    ensures forall i :: 0 <= i < |hs| ==> r[i].hid == hs[i].hid && r[i].element == hs[i].element
    ensures forall i :: 0 <= i < |hs| ==> r[i].visible == if hs[i].hid == hid then visible else hs[i].visible
  {
    seq(|hs|, i requires 0 <= i < |hs| => if hs[i].hid == hid then hs[i].(visible := visible) else hs[i])
  }

  /** `handle.setVisible(visible)`. */
  function SetVisible(t: ToolbarState, hid: nat, visible: bool): (t': ToolbarState)
    ensures forall p :: Elements(t', p) == SetVisibleIn(Elements(t, p), hid, visible)
    ensures t'.nextHid == t.nextHid
  {
    ToolbarState(SetVisibleIn(t.left, hid, visible), SetVisibleIn(t.right, hid, visible),
                 SetVisibleIn(t.center, hid, visible), t.nextHid)
  }

  /** The elements of the visible handles, in list order. */
  function VisibleElements(hs: seq<Handle>): (r: seq<Element>)
    ensures |r| <= |hs|
    ensures |hs| == 1 ==> r == if hs[0].visible then [hs[0].element] else []
    ensures forall x :: x in r ==> exists i :: 0 <= i < |hs| && hs[i].visible && hs[i].element == x
    ensures forall i :: 0 <= i < |hs| && hs[i].visible ==> hs[i].element in r
  {
    if hs == [] then []
    else
      var rest := VisibleElements(hs[1..]);
      assert forall i :: 1 <= i < |hs| ==> hs[i] == hs[1..][i - 1];
      if hs[0].visible then [hs[0].element] + rest else rest
  }

  /** Filtering a concatenation filters each part, keeping the parts in order. */
  lemma {:induction false} VisibleAppend(a: seq<Handle>, b: seq<Handle>)
    ensures VisibleElements(a + b) == VisibleElements(a) + VisibleElements(b)
  {
    if a != [] {
      assert (a + b)[1..] == a[1..] + b;
      VisibleAppend(a[1..], b);
    } else {
      assert a + b == b;
    }
  }

  /** `element.order || 0`, on elements. */
  function OrderKey(e: Element): int {
    e.order.GetOr(0)
  }

  /** Elements in nondecreasing `order || 0`. */
  predicate SortedElements(r: seq<Element>) {
    forall i, j :: 0 <= i < j < |r| ==> OrderKey(r[i]) <= OrderKey(r[j])
  }

  /** A sorted handle list shows its visible elements sorted by order. */
  lemma {:induction false} VisibleSorted(hs: seq<Handle>)
    requires Sorted(hs)
    ensures SortedElements(VisibleElements(hs))
  {
    if hs != [] {
      VisibleSorted(hs[1..]);
      if hs[0].visible {
        VisibleAboveHead(hs);
        ConsSortedElements(hs[0].element, VisibleElements(hs[1..]));
      }
    }
  }

  /** In a sorted list, what the tail shows has orders at least the head's. */
  lemma VisibleAboveHead(hs: seq<Handle>)
    requires hs != [] && Sorted(hs)
    ensures forall j :: 0 <= j < |VisibleElements(hs[1..])| ==>
      OrderKey(hs[0].element) <= OrderKey(VisibleElements(hs[1..])[j])
  {
    var rest := VisibleElements(hs[1..]);
    forall j | 0 <= j < |rest|
      ensures OrderKey(hs[0].element) <= OrderKey(rest[j])
    {
      assert rest[j] in rest;
      var k :| 0 <= k < |hs[1..]| && hs[1..][k].visible && hs[1..][k].element == rest[j];
      assert hs[k + 1] == hs[1..][k];
    }
  }

  /** An element whose order is at most every order of a sorted list can go in front. */
  lemma ConsSortedElements(e: Element, rest: seq<Element>)
    requires SortedElements(rest)
    requires forall j :: 0 <= j < |rest| ==> OrderKey(e) <= OrderKey(rest[j])
    ensures SortedElements([e] + rest)
  {
    var r := [e] + rest;
    forall i, j | 0 <= i < j < |r|
      ensures OrderKey(r[i]) <= OrderKey(r[j])
    {
      if i == 0 {
        assert r[j] == rest[j - 1];
      } else {
        assert r[i] == rest[i - 1] && r[j] == rest[j - 1];
      }
    }
  }

  /** `getVisibleElements(position)`. */
  function GetVisibleElements(t: ToolbarState, p: Position): (r: seq<Element>)
    ensures forall x :: x in r ==> exists h :: h in Elements(t, p) && h.visible && h.element == x
    ensures forall h :: h in Elements(t, p) && h.visible ==> h.element in r
  {
    VisibleElements(Elements(t, p))
  }

  /** For display, hiding a handle is the same as removing it. */
  lemma {:induction false} HidingIsRemovingForDisplay(hs: seq<Handle>, hid: nat)
    requires DistinctHids(hs)
    ensures VisibleElements(SetVisibleIn(hs, hid, false)) == VisibleElements(RemoveHandle(hs, hid))
  {
    if hs != [] {
      RemoveHandleCons(hs, hid);
      var hidden := SetVisibleIn(hs, hid, false);
      assert hidden[1..] == SetVisibleIn(hs[1..], hid, false);
      if hs[0].hid == hid {
        assert forall i :: 0 <= i < |hs[1..]| ==> hs[1..][i].hid != hid;
        UntouchedByOthers(hs[1..], hid);
        assert RemoveHandle(hs, hid) == hs[1..];
      } else {
        HidingIsRemovingForDisplay(hs[1..], hid);
      }
    }
  }

  lemma UntouchedByOthers(hs: seq<Handle>, hid: nat)
    requires forall i :: 0 <= i < |hs| ==> hs[i].hid != hid
    ensures SetVisibleIn(hs, hid, false) == hs
  {
  }

  /** A freshly registered element is shown in its position. */
  lemma NewElementIsShown(t: ToolbarState, e: Element)
    ensures e in GetVisibleElements(RegisterToolBarElement(t, e).0, e.position)
  {
    var (t', h) := RegisterToolBarElement(t, e);
    assert h in multiset(Elements(t', e.position));
  }

  /** What a position shows is ordered by `order`, as its handle list is. */
  lemma ShownInOrder(t: ToolbarState, p: Position)
    requires Valid(t)
    ensures SortedElements(GetVisibleElements(t, p))
  {
    VisibleSorted(Elements(t, p));
  }

  /** `setVisible` keeps the service's invariant: orders and identities do not change. */
  lemma SetVisibleKeepsValid(t: ToolbarState, hid: nat, visible: bool)
    requires Valid(t)
    ensures Valid(SetVisible(t, hid, visible))
  {
    var t' := SetVisible(t, hid, visible);
    forall q
      ensures Sorted(Elements(t', q)) && DistinctHids(Elements(t', q))
      ensures forall i :: 0 <= i < |Elements(t', q)| ==> Elements(t', q)[i].hid < t'.nextHid
    {
      var hs, r := Elements(t, q), Elements(t', q);
      assert forall i :: 0 <= i < |r| ==> Key(r[i]) == Key(hs[i]) && r[i].hid == hs[i].hid;
    }
  }

  /** Registering keeps the service's invariant. */
  lemma RegisterKeepsValid(t: ToolbarState, e: Element)
    requires Valid(t)
    ensures Valid(RegisterToolBarElement(t, e).0)
  {
    var (t', h) := RegisterToolBarElement(t, e);
    var hs := Elements(t, e.position);
    var r := Elements(t', e.position);
    RegisterIsStableInsert(t, e);
    InsertFresh(hs, h);
    forall q | q != e.position
      ensures Sorted(Elements(t', q)) && DistinctHids(Elements(t', q))
      ensures forall i :: 0 <= i < |Elements(t', q)| ==> Elements(t', q)[i].hid < t'.nextHid
    {
      assert Elements(t', q) == Elements(t, q);
    }
  }

  /** Inserting a handle whose identity is above every identity of a list keeps them distinct. */
  lemma InsertFresh(hs: seq<Handle>, h: Handle)
    requires DistinctHids(hs)
    requires forall i :: 0 <= i < |hs| ==> hs[i].hid < h.hid
    ensures DistinctHids(Insert(hs, h))
    ensures forall a :: 0 <= a < |Insert(hs, h)| ==> Insert(hs, h)[a].hid <= h.hid
  {
    var r := Insert(hs, h);
    forall a | 0 <= a < |r|
      ensures r[a].hid <= h.hid
    {
      InsertAt(hs, h, a);
    }
    forall a, b | 0 <= a < b < |r|
      ensures r[a].hid != r[b].hid
    {
      InsertAt(hs, h, a);
      InsertAt(hs, h, b);
    }
  }

  /** The element at each position after an insertion. */
  lemma InsertAt(hs: seq<Handle>, h: Handle, a: nat)
    requires a < |Insert(hs, h)|
    ensures var i := InsertIndex(hs, h);
      Insert(hs, h)[a] == if a < i then hs[a] else if a == i then h else hs[a - 1]
  {
  }
}
